=== FILE: README.md ===
# Upload app of the FindCarHome backend, in Dafny

This project models the media-upload app of the FindCarHome backend, a Django REST service. Users attach images, videos, audio and documents to house and car listings. The model covers:

- **Request logic of the upload view set.** MIME classification, the client address, the `is_primary` flag, the renamed file's extension, required-field and per-type size validation, and image dimensions and thumbnail derivation around an abstract imaging library.
- **Operations on the store.** `create`, `batch_upload`, `set_primary`, `by_listing` and `destroy`, as pure functions over a store that holds the `UploadedFile` table, the `FileUploadLog` table and the names in the blob store.
- **The two models.** Choices, column defaults, the `save` and `delete` overrides, and the URL properties.
- **The authentication class.** How the Authorization header is read, the challenge it advertises, and the `FirebaseUser` object.

Modules:

| file | module | contents |
|---|---|---|
| common.dfy | `Common` | `Option` (Python's `None`), `Result`, `byte`, a generic `Filter`, two small sequence lemmas |
| text.dfy | `Text` | Python string built-ins the code relies on: `isspace`, `strip()`, `split()`, `split(',')[0]`, `lower()`, `s[:n]` |
| models.dfy | `Models` | `UploadedFile`, `FileUploadLog`, choices, `save`, `delete`, `url`, `thumbnail_url`, the store, the primary-flag predicates |
| media.dfy | `Media` | upload streams, the abstract image codec, `get_image_dimensions`, `generate_thumbnail` |
| ingest.dfy | `Ingest` | `detect_file_type`, `get_client_ip`, the user-agent column, `is_primary` parsing, `splitext`, the validation of `create` |
| upload.dfy | `Upload` | `create`, `batch_upload` |
| listing.dfy | `Listing` | `get_object` scoping, `set_primary`, `by_listing`, `destroy` |
| auth.dfy | `Auth` | header parsing of `authenticate`, `authenticate_header`, `FirebaseUser` |

Several inputs are parameters rather than behaviour:

- **`Fresh`, one per `create` call.** It supplies the `uuid4()` values, the dated upload directories, the clock, and whether the metadata store raises. A raised exception rolls the atomic `create` back, so the store is unchanged.
- **`ImageCodec`.** It stands for the imaging library: `open` reads a header or fails, and `render` converts, resizes and encodes along a plan or fails.
- **`Env.limits`.** This is the `MAX_UPLOAD_SIZE` setting.
- **`mediaUrl`.** This is the storage's URL prefix.
- **The authenticated caller.** It is passed as a uid.

Behaviours of the code a reader might not expect:

- `create` does not check `listing_type` against the house/car choices. It does not check the length of `listing_id` either.
- `create` writes the requested `is_primary` flag directly. It does not go through `set_primary`, so a listing key can end up with two primary files (`Upload.CreateMayDuplicatePrimary`). For the same reason, a batch flags the file at index 0, when it is accepted, even when the listing already has a primary.
- `by_listing` queries every user's rows, not only the caller's.
- Ownership for `set_primary` and `destroy` is enforced only by the caller-scoped queryset. Another user's row is "not found".
- `get_image_dimensions` and `generate_thumbnail` leave the stream at position 0, not at its position before the call.

## Model

| member | source | states |
|---|---|---|
| Ingest.DetectFileType | apps/upload/views.py:45-53 | the result is image, video or audio exactly when the MIME string starts with "image/", "video/" or "audio/"; document exactly when it starts with none of them |
| Ingest.DetectFileTypeRoundTrip | apps/upload/views.py:45-53 | any subtype appended to a category's prefix classifies back to that category; only documents have no prefix |
| Ingest.DetectFileTypeExamples | apps/upload/views.py:45-53 | png/mp4/mpeg/pdf classify as image/video/audio/document; "", "image" and the upper-case "IMAGE/PNG" are documents (the match is case-sensitive) |
| Ingest.ClientIp | apps/upload/views.py:36-43 | with a non-empty X-Forwarded-For the address holds no comma, has no surrounding whitespace and is no longer than the header; otherwise it is REMOTE_ADDR, possibly None |
| Ingest.ClientIpFirstHop | apps/upload/views.py:38-40 | the first hop of a forwarding chain is returned exactly, whatever whitespace pads it and whatever follows the first comma |
| Ingest.UserAgent | apps/upload/views.py:161 | the stored user agent is a prefix of the header of at most 500 characters, the whole header when it fits, and "" when the header is absent |
| Ingest.ParseIsPrimary | apps/upload/views.py:100 | the flag is true exactly when a value is present, four characters long, and spells "true" with each letter in either case; an absent flag defaults to false |
| Ingest.ParseIsPrimaryExamples | apps/upload/views.py:100 | "true" in any letter case is true; an absent flag, "false", "1", "yes" and "" are false |
| Ingest.SplitExt | apps/upload/views.py:128 | the extension is empty or a suffix of the name starting with a dot, with no further dot or slash in it; it is non-empty exactly when the last path component has a dot after some character that is not a dot |
| Ingest.SplitExtOf | apps/upload/views.py:128 | a name whose last component has an ordinary character before its final dot has exactly ".ext" as its extension |
| Ingest.SplitExtLeadingDots | apps/upload/views.py:128 | a last component made of leading dots followed by text without dots (".bashrc", "..png") has no extension |
| Ingest.Extension | apps/upload/views.py:128 | the kept extension is empty exactly when `splitext` finds none, otherwise starts with a dot; it holds no slash and no upper-case ASCII letter |
| Ingest.ExtensionOf | apps/upload/views.py:128 | the fresh name's extension is the lower-cased text after the final dot, dot included |
| Ingest.EffectiveMime | apps/upload/views.py:111-112 | a non-empty declared content type is kept; a missing or empty one is replaced by "application/octet-stream", which classifies as a document |
| Ingest.MaxUploadSize | apps/upload/views.py:115 | the configured cap for the detected type, or 5 MiB when the type is not configured |
| Ingest.RequiredPresent | apps/upload/views.py:104 | the required fields count as present exactly when the file is given with a non-empty name and the listing type and id are each given and non-empty; an absent or empty value is missing, as Python truthiness reads it |
| Ingest.Admit | apps/upload/views.py:104-120 | missing-fields error iff the file (a non-empty name), listing type or listing id is missing or empty; otherwise file-too-large iff the size exceeds the cap of the detected type, reporting the cap in whole MiB; a file exactly at the cap is accepted |
| Media.ModeSteps | apps/upload/views.py:72-79 | every colour mode ends as RGB; the picture is pasted onto white with its alpha band as mask iff the mode is RGBA or P, a palette being expanded first; pasted without a mask iff it is LA; left alone iff it is RGB; any other mode is only converted to RGB |
| Media.PlanFor | apps/upload/views.py:66-85 | a thumbnail is asked for in RGB, bounded by 400x300, as optimised JPEG at quality 75 |
| Media.ImageDimensions | apps/upload/views.py:55-64 | width and height are both present or both absent, present exactly when the image opens, and then equal to its size; on every path the stream is left at position 0 |
| Media.GenerateThumbnail | apps/upload/views.py:66-92 | no thumbnail when the image does not open; otherwise the rendering of the picture along its plan; on every path the stream is left at position 0 |
| Media.ThumbnailImpliesDimensions | apps/upload/views.py:55-92 | a stream that yields a thumbnail also yields dimensions; both helpers leave the same stream, and probing again gives the same answer |
| Models.FileTypeChoice | apps/upload/models.py:10-15 | a stored string reads back only as the file type whose value it is |
| Models.ListingTypeChoice | apps/upload/models.py:17-20 | a stored string reads back only as the listing type whose value it is |
| Models.ChoicesRoundTrip | apps/upload/models.py:10-20 | every file type and listing type reads back as itself from its stored value; other strings are not choices |
| Models.NewRecord | apps/upload/models.py:22-33 | a row built from the required fields has file type image, is not primary, has size 0, an empty MIME type and no thumbnail or dimensions |
| Models.Save | apps/upload/models.py:45-48 | saving changes only the size: a zero size of a row with a file becomes the file's size; otherwise the size stays |
| Models.SaveIdempotent | apps/upload/models.py:45-48 | saving twice is saving once |
| Models.SaveFillsNewRecord | apps/upload/models.py:45-48  | a row created with defaults records its file's size on its first save |
| Models.Url | apps/upload/models.py:58-60 | no URL iff the row has no file; otherwise the media URL followed by the stored name |
| Models.ThumbnailUrl | apps/upload/models.py:62-64 | no URL iff the row has no thumbnail; otherwise the media URL followed by the thumbnail's name |
| Models.AddFile | apps/upload/views.py:133-144 | the row is appended under the next file key with its blobs; the log is untouched and the key invariants still hold |
| Models.RemoveByIdMembers | apps/upload/models.py:56 | removing a key keeps exactly the rows with another key |
| Models.RemoveByIdIncreasing | apps/upload/models.py:56 | removing a key keeps the keys increasing along the table |
| Models.DeleteRecord | apps/upload/models.py:50-56 | afterwards the blob store holds exactly the earlier names other than the row's file and thumbnail, the table holds exactly the other rows, the log is untouched and the key invariants still hold |
| Models.AppendLog | apps/upload/models.py:67-77 | a log row with the given action and file id is appended under a fresh key; earlier rows, files and blobs are untouched |
| Upload.UniqueName | apps/upload/views.py:128-130 | the fresh name is the 36-character uuid followed by the kept extension: nothing more exactly when `splitext` finds no extension, otherwise a dot and text without slashes or upper-case ASCII letters |
| Upload.UniqueNameOf | apps/upload/views.py:128-130 | a file "stem.ext" is renamed to the uuid, a dot and the lower-cased ext |
| Upload.ThumbName | apps/upload/views.py:150 | the thumbnail's name is "thumb_", the 36-character uuid and ".jpg" |
| Upload.BuildRecord | apps/upload/views.py:122-151 | the row has the given id, caller, flag, listing, type, MIME type and clock; it stores the file under the dated directory and fresh name with its size; an image has the dimensions the image reports and any other type none; it has a thumbnail exactly when an image renders, holding the rendered bytes under the thumbnail name |
| Upload.Create | apps/upload/views.py:94-165 | missing-fields iff the required fields are absent or empty; file-too-large iff they are present and the size exceeds the cap; a raised exception iff the file is admitted and the store faults; success iff it is admitted and the store does not fault; any failure leaves the store unchanged; on success exactly the row and one log row are appended and the row's blobs added; key invariants are kept |
| Upload.CreateLogsUpload | apps/upload/views.py:153-162 | the log row of a successful create is an upload by the caller of the new row's id, under the fresh name (uuid and lower-cased extension) the file was renamed to, with the row's size, the client address, the cut user agent and the clock of the call |
| Upload.CreateRecordsRequest | apps/upload/views.py:97-151 | the stored row is the store's next key, holds the file under the dated upload directory and the fresh name with its size, carries the clock of the call, the caller, the requested listing, the parsed flag, the effective MIME type and its category, a size within its cap, for an image the dimensions the image reports and for any other type none, and a thumbnail exactly when an image renders, holding the rendered bytes under the thumbnail name |
| Upload.CreateMayDuplicatePrimary | apps/upload/views.py:133-144 | creating a primary file under a listing key that already has one leaves two primaries under that key |
| Upload.ItemRequest | apps/upload/views.py:186-191 | each batch item asks `create` for that file under the batch's listing, with a flag that parses as true exactly at index 0 |
| Upload.CreateItem | apps/upload/views.py:183-194 | one batch item is `create` with the flag "true" only at index 0; a failure changes nothing; a success appends its row and one log row, and the row is primary iff it is at index 0 |
| Upload.ItemRow | apps/upload/views.py:194-196 | an accepted file's result is a row under the given key, owned by the caller, primary exactly at index 0 |
| Upload.ItemError | apps/upload/views.py:197-206 | a refused file's error is an exception exactly when `create` admitted the file, and then names the renamed file and carries the exception's message; otherwise it names the file as submitted |
| Upload.CreateItemVerdict | apps/upload/views.py:183-206 | an item succeeds exactly when its file is accepted on its own; a success is the item's row under the next key and advances the key by one; a failure reports the item's error |
| Upload.Positions | apps/upload/views.py:183-206 | the positions where a flag has the wanted value: within range, exactly those, in increasing order |
| Upload.PositionsAllBut | apps/upload/views.py:183-206 | when only position q is refused, the refused positions are [q] and the accepted ones are every other position in order |
| Upload.BatchItem | apps/upload/views.py:183-206 | the item at index i succeeds exactly when the file there is accepted, and then yields that file's row under the next key; otherwise it reports that file's error |
| Upload.BatchLoop | apps/upload/views.py:180-206 | every file ends up as a result or as an error; the table grows by exactly the results in order and the log by one row per result; only the very first file can be primary; key invariants are kept |
| Upload.BatchLoopGathers | apps/upload/views.py:180-206 | from any index on, the loop's results are the rows of the accepted files in order under consecutive keys (no rolled-back insert consumes a key, see "Left out"), and its errors are the errors of the refused files in order |
| Upload.CreateItemLogged | apps/upload/views.py:153-162 | a successful batch item adds exactly its row's blobs and one log row, which records the upload of that row by the caller |
| Upload.BatchLoopLogsUploads | apps/upload/views.py:180-206 | the blob store grows by exactly the blobs of the results, and the new log rows record the uploads of the results by the caller, one each, in order |
| Upload.BatchLoopRows | apps/upload/views.py:180-206 | the loop's results are the accepted files' rows, in submission order, under consecutive keys (no rolled-back insert consumes a key, see "Left out") from the store's next key |
| Upload.BatchLoopErrors | apps/upload/views.py:180-206 | the loop's errors are the refused files' errors, in submission order |
| Upload.AcceptedRowsAt | apps/upload/views.py:194-196 | the j-th result is the row of the j-th accepted file, under the j-th key after the first |
| Upload.RefusedErrorsAt | apps/upload/views.py:197-206 | the j-th error is the error of the j-th refused file |
| Upload.BatchUpload | apps/upload/views.py:167-213 | rejected iff no files are given; otherwise the counts add up to the number of files, the table is the old table followed by the results, no result after the first is primary, the results are the accepted files' rows in order under consecutive keys (no rolled-back insert consumes a key, see "Left out"), and the errors are the refused files' errors in order |
| Upload.BatchUploadLogsUploads | apps/upload/views.py:167-213 | after a batch the blob store is the earlier blobs plus those of the results, and each result has its own upload log row, in the order of the results |
| Upload.BatchPrimaryIsFirstFile | apps/upload/views.py:191 | the first result is primary exactly when the first file is accepted |
| Upload.BatchIsolatesRefusal | apps/upload/views.py:167-213 | when exactly the file at q is refused, the batch reports the other files as successes and that one file's error, and the accepted positions are all positions but q in order |
| Upload.IsolatedPrefix | apps/upload/views.py:183-196 | when only the file at q is refused, each result before q is the row of the file at the same index |
| Upload.IsolatedSuffix | apps/upload/views.py:183-196 | when only the file at q is refused, each result from q on is the row of the next file, under the key of its place among the results |
| Upload.BatchWithoutListingType | apps/upload/views.py:167-206  | without a listing type every file is refused as incomplete, the errors name the files in order, and the store is unchanged |
| Upload.BatchLoopWithoutListingType | apps/upload/views.py:183-206 | the loop with no listing type stores nothing and reports each file, in order, as missing fields |
| Listing.FindOwned | apps/upload/views.py:31-34 | a row is found iff the caller owns a row with that id, and the found row is one |
| Listing.ClearPrimary | apps/upload/views.py:221-225 | every row under the key loses its flag; every other row is untouched |
| Listing.SetPrimary | apps/upload/views.py:215-231 | not found iff the caller has no row with that id; otherwise the target is saved as primary, every other row under its key is cleared, and rows under other keys and the rest of the store are untouched |
| Listing.SetPrimaryKeepsRows | apps/upload/views.py:221-229 | set_primary changes no row's listing, owner or id, and nothing outside the file table |
| Listing.SetPrimaryExactlyOne | apps/upload/views.py:215-231 | afterwards a row under the target's key is primary iff it is the target |
| Listing.SetPrimaryKeepsSinglePrimary | apps/upload/views.py:215-231 | afterwards the target's key has at most one primary, and if every key had at most one before, every key still does |
| Listing.SetPrimaryIdempotent | apps/upload/views.py:215-231 | setting the same file primary twice gives the same store as setting it once |
| Common.Filter | apps/upload/views.py:245-247 | the kept elements are exactly the input's elements that the condition accepts, each as often as it occurs in the input |
| Listing.FilterListing | apps/upload/views.py:245-247 | the rows of the given listing, of every user, drawn from the table, each as often as it is stored, and no other row |
| Listing.ListedBefore | apps/upload/views.py:248 | a primary row lists before a non-primary one and never after it; between rows with the same flag, the newer or equally new row lists first |
| Listing.Insert | apps/upload/views.py:248 | inserting into an ordered list keeps it ordered and adds exactly that row |
| Listing.SortForListing | apps/upload/views.py:248 | a permutation of its input, primary rows first and newer before older |
| Listing.ByListing | apps/upload/views.py:233-251 | an error iff either parameter is missing or empty; otherwise exactly the listing's rows of all users, each as often as stored, primary first and newest first |
| Listing.Destroy | apps/upload/views.py:253-268  | not found iff the caller has no row with that id; otherwise one delete log row is appended, naming the id, the caller, the stored file name (or "unknown"), the size, the client address, the cut user agent and the clock of the call; the row and its file and thumbnail blobs are gone |
| Listing.DestroyLeavesDanglingLog | apps/upload/views.py:253-268  | after destroy the delete log row still refers to the id while no row carries it |
| Listing.DestroyNewest | apps/upload/views.py:253-268 | destroying the caller's newest row leaves exactly the earlier rows, removes its blobs and appends one delete row for its id |
| Listing.CreateThenDestroy | apps/upload/views.py:253-268  | destroying a file just created by the same caller restores the earlier rows, removes the new blobs, and leaves an upload and a delete log row for the same id |
| Auth.ParseAuthorization | apps/upload/authentication.py:87-100 | an absent or empty header is no attempt; otherwise a token is handed on iff the header splits on whitespace into exactly two parts whose first is the keyword ignoring case; the token is the second part, non-empty and without whitespace |
| Auth.ParseAuthorizationRoundTrip | apps/upload/authentication.py:95-100 | any spelling of "Bearer" and a token, with any whitespace around and between them, hands on exactly that token |
| Auth.ParseAuthorizationRejectsShort | apps/upload/authentication.py:88-98 | no header, an empty header and a lone "Bearer" are not attempted |
| Auth.ParseAuthorizationRejectsExtraPart | apps/upload/authentication.py:95-98 | a header with a third part is not attempted |
| Auth.ParseAuthorizationRejectsOtherScheme | apps/upload/authentication.py:95-98 | a "Basic" header is not attempted |
| Auth.AuthenticateHeader | apps/upload/authentication.py:130-131  | the advertised challenge is "Bearer" |
| Auth.ChallengeIsAccepted | apps/upload/authentication.py:95-100  | answering the advertised challenge with a token gets exactly that token verified |
| Auth.Attribute | apps/upload/authentication.py:14-18 | a user has exactly the attributes uid, email, name and is_authenticated; is_authenticated is True, uid is the uid, and email or name is the given string, or None exactly when it was not given |
| Auth.UserGet | apps/upload/authentication.py:20-21 | an existing attribute's value, even None, otherwise the default |
| Auth.UserGetCases | apps/upload/authentication.py:14-21 | every user is authenticated; the uid is returned; a None email stays None and does not become the default; an unknown key gives the default |
| Auth.UserDisplay | apps/upload/authentication.py:23-24 | the email when it is a non-empty string, otherwise the uid |
| Text.Strip | apps/upload/views.py:40 | the result is a substring of the input with no whitespace at either end |
| Text.StripPadded | apps/upload/views.py:40 | stripping whitespace padding gives back exactly the padded text |
| Text.BeforeComma | apps/upload/views.py:40 | the part before the first comma is a prefix without commas, ending at a comma or at the end |
| Text.Split | apps/upload/authentication.py:95 | the parts are non-empty and hold no whitespace |
| Text.SplitTwoWords | apps/upload/authentication.py:95-96 | two words with whitespace around and between them split into exactly those two |
| Text.SplitKeepsText | apps/upload/authentication.py:95 | the parts, concatenated, are the input with its whitespace removed |
| Text.Lower | apps/upload/authentication.py:96  | same length; no upper-case ASCII letter remains, each becoming the letter 32 code points above it; every other character is unchanged |
| Text.Truncate | apps/upload/views.py:161 | a prefix of at most n characters, the whole string when it fits |

## Left out

- Firebase Admin initialisation (`apps/upload/authentication.py:37-84`), ID-token verification and its four failure messages (102-127): these are calls into the Firebase SDK. The authenticated caller is a parameter.
- The debug prints in the authentication class are output only.
- Pixel work of the imaging library is abstracted into `ImageCodec.render`. That covers palette expansion, pasting, LANCZOS resampling, the aspect-preserving fit into 400x300, and JPEG encoding. The model keeps the plan it is given, not the pixels it produces.
- Transactions and concurrency: each `create` is one atomic step and each request runs alone. Isolation levels and interleavings of concurrent requests are not modelled.
- A blob written to storage before a later step of `create` raises stays in the storage backend after the database rollback. The model has the persistence fault strike before anything is written, so no orphan blobs appear. For the same reason the keys are consecutive: in the code, a failure after `UploadedFile.objects.create` (the thumbnail save or the log insert) rolls the row back, but the key the database sequence handed out may stay consumed, so the next row need not take the next key. The "consecutive keys" of `Upload.BatchLoopGathers`, `Upload.BatchLoopRows` and `Upload.BatchUpload` hold under this assumption only.
- `Listing.Destroy`: the log row and the deletion are not one transaction (`destroy` has no `atomic`). The model applies both, so a crash between them is not represented.
- Column lengths (`max_length` of 128, 10, 20, 100 for the MIME type, and 255) and the `GenericIPAddressField` format are database-side constraints. The model does not enforce them, and neither does `create` before writing. The `file` and `thumbnail` fields' limit of 100 characters is different: the storage backend applies it to the name before writing (see `Upload.BuildRecord` below).
- The per-type `MAX_UPLOAD_SIZE` setting lives in the base settings, which are not part of this model; it is the `Env.limits` parameter.
- `MEDIA_URL` and the storage backend's URL quoting are not part of this model; the URL is the prefix parameter followed by the stored name.
- Dated directory names (`%Y/%m/%d`), `uuid4()` values and timestamps come from the `Fresh` oracle. Name collisions handled by the storage backend are not modelled.
- Upload.BuildRecord: the stored file name is modelled as exactly the dated directory plus the fresh name, which is also the name `create` logs. The file storage of the repository (`FileSystemStorage`, config/settings/development.py:9) first passes the name through `get_valid_name`, which turns spaces into `_` and drops every character other than letters, digits, `-`, `_` and `.`; an upload named "photo.jpg (1)" is logged as "<uuid>.jpg (1)" but stored as "<uuid>.jpg_1". It then enforces the field's default `max_length` of 100: a longer name has its stem cut and a random suffix appended, or the save raises `SuspiciousFileOperation`. Neither step is modelled, so the stored name is promised only for names these steps leave unchanged.
- Response serialisation (`apps/upload/serializers.py`), the admin (`apps/upload/admin.py`), and the `__str__` of both models are presentation only. Response bodies are the returned rows and errors.
- The inherited list, retrieve and update actions of the model view set, and the `update` log action, which no view writes, are not modelled.
- `batch_upload` mutates the shared request between items (`request.data._mutable`). In the model each item gets its own request with the same fields.
- Error message texts are reduced to the error kinds; a raised exception carries its message.
- `Listing.SortForListing`: the database fixes no order among rows that tie on both primary flag and upload time, so the contract leaves it open too.
- `Ingest.Extension`: lowers only ASCII letters, while Python's `lower()` also lowers other scripts, so a non-ASCII extension can differ from the one the code produces.
- `Text.Lower`: lowers ASCII letters only. The comparisons of a lowered value against "true" and "bearer" are still exact, because no other character lowers to one of their letters.
- `Auth.UserGet`: only the four instance attributes the constructor sets are modelled. `getattr` would also find the class's methods (`get`, `__str__`) and inherited attributes such as `__class__`; for those keys the model returns the default instead.
- Invariant that every stored row's file names a blob in the store: `DeleteRecord` and `Create` state how blobs change, but the store-wide invariant is not carried as a predicate.

=== FILE: auth.dfy ===
/** The request-side part of the Firebase authentication class
    (`apps/upload/authentication.py`): how the Authorization header is read before any
    token verification, the challenge it advertises, and the small user object it
    produces. Token verification itself is outside the model. */
module Auth {
  import opened Common
  import opened Text

  /** The authentication scheme keyword. */
  const Keyword: string := "Bearer"

  /** What `authenticate` does with a header before verifying anything: either it does
      not attempt authentication (returns `None`), or it hands one token on. */
  datatype AuthAttempt = NotAttempted | VerifyToken(token: string)

  /** The header handling of `authenticate`: a missing or empty header is no attempt;
      otherwise the header must split on whitespace into exactly two parts whose first
      equals the keyword ignoring case, and the second part is the token. */
  function ParseAuthorization(header: Option<string>): (r: AuthAttempt)
    ensures header.None? || header.value == [] ==> r == NotAttempted
    ensures r.VerifyToken? <==>
              && header.Some?
              && |Split(header.value)| == 2
              && Lower(Split(header.value)[0]) == Lower(Keyword)
    ensures r.VerifyToken? ==> r.token == Split(header.value)[1]
    ensures r.VerifyToken? ==> r.token != [] && NoSpace(r.token)
  {
    if header.None? || header.value == [] then NotAttempted
    else
      var parts := Split(header.value);
      if |parts| != 2 || Lower(parts[0]) != Lower(Keyword) then NotAttempted
      else VerifyToken(parts[1])
  }

  /** Any spelling of the scheme followed by a token, with any whitespace around and
      between them, hands on exactly that token. */
  lemma ParseAuthorizationRoundTrip(a: string, scheme: string, b: string, token: string, c: string)
    requires AllSpace(a) && AllSpace(c)
    requires AllSpace(b) && b != []
    requires scheme != [] && NoSpace(scheme) && Lower(scheme) == Lower(Keyword)
    requires token != [] && NoSpace(token)
    ensures ParseAuthorization(Some(a + scheme + b + token + c)) == VerifyToken(token)
  {
    SplitTwoWords(a, scheme, b, token, c);
  }

  /** The challenge `authenticate_header` advertises. */
  function AuthenticateHeader(): (scheme: string)
    ensures scheme == "Bearer"
  {
    Keyword
  }

  /** A client answering the advertised challenge with a token is understood. */
  lemma ChallengeIsAccepted(token: string)
    requires token != [] && NoSpace(token)
    ensures ParseAuthorization(Some(AuthenticateHeader() + " " + token)) == VerifyToken(token)
  {
    assert NoSpace(Keyword);
    assert AuthenticateHeader() + " " + token == [] + Keyword + " " + token + [];
    ParseAuthorizationRoundTrip([], Keyword, " ", token, []);
  }

  /** No header, an empty header and a lone scheme are not attempted. */
  lemma ParseAuthorizationRejectsShort()
    ensures ParseAuthorization(None) == NotAttempted
    ensures ParseAuthorization(Some("")) == NotAttempted
    ensures ParseAuthorization(Some("Bearer")) == NotAttempted
  {
    assert NoSpace("Bearer");
    SplitPaddedWord([], "Bearer", []);
    assert [] + "Bearer" + [] == "Bearer";
    SplitAllSpace([]);
  }

  /** A third whitespace-separated part makes the header unusable. */
  lemma ParseAuthorizationRejectsExtraPart(token: string)
    requires token != [] && NoSpace(token)
    ensures ParseAuthorization(Some("Bearer " + token + " x")) == NotAttempted
  {
    var third := " " + "x" + [];
    var second := " " + token + third;
    assert "Bearer " + token + " x" == [] + "Bearer" + second;
    assert NoSpace("Bearer") && NoSpace("x");
    SplitPaddedWord([], "Bearer", second);
    SplitPaddedWord(" ", token, third);
    SplitPaddedWord(" ", "x", []);
  }

  /** Another scheme is not attempted. */
  lemma ParseAuthorizationRejectsOtherScheme(token: string)
    requires token != [] && NoSpace(token)
    ensures ParseAuthorization(Some("Basic " + token)) == NotAttempted
  {
    var rest := " " + token;
    assert "Basic " + token == [] + "Basic" + rest;
    assert NoSpace("Basic");
    SplitPaddedWord([], "Basic", rest);
    assert Lower("Basic")[1] == 'a' != Lower(Keyword)[1];
  }

  // ---------------------------------------------------------------------------
  // FirebaseUser
  // ---------------------------------------------------------------------------

  /** The user object built from a verified token. `is_authenticated` is a constant. */
  datatype FirebaseUser = FirebaseUser(uid: string, email: Option<string>, name: Option<string>)

  /** The Python values an attribute lookup can produce. */
  datatype PyValue = PyNone | PyStr(s: string) | PyBool(b: bool)

  function OptionalStr(v: Option<string>): PyValue {
    match v
    case Some(s) => PyStr(s)
    case None => PyNone
  }

  /** The instance attributes the constructor sets. An attribute that holds `None`
      still exists. */
  function Attribute(u: FirebaseUser, key: string): (a: Option<PyValue>)
    ensures a.Some? <==> key in ["uid", "email", "name", "is_authenticated"]
    ensures key == "is_authenticated" ==> a == Some(PyBool(true))
    ensures key == "uid" ==> a == Some(PyStr(u.uid))
    ensures key == "email" ==> a.Some? && (a.value == PyNone <==> u.email.None?)
    ensures key == "name" ==> a.Some? && (a.value == PyNone <==> u.name.None?)
    ensures key == "email" && u.email.Some? ==> a == Some(PyStr(u.email.value))
    ensures key == "name" && u.name.Some? ==> a == Some(PyStr(u.name.value))
  {
    if key == "uid" then Some(PyStr(u.uid))
    else if key == "email" then Some(OptionalStr(u.email))
    else if key == "name" then Some(OptionalStr(u.name))
    else if key == "is_authenticated" then Some(PyBool(true))
    else None
  }

  /** `get(key, default)`: `getattr(self, key, default)`. */
  function UserGet(u: FirebaseUser, key: string, default: PyValue): (v: PyValue)
    ensures Attribute(u, key).Some? ==> v == Attribute(u, key).value
    ensures Attribute(u, key).None? ==> v == default
  {
    match Attribute(u, key)
    case Some(a) => a
    case None => default
  }

  /** Every user is authenticated; a `None` email is returned as `None`, not replaced by
      the default; an unknown key yields the default. */
  lemma UserGetCases(u: FirebaseUser, default: PyValue)
    ensures UserGet(u, "is_authenticated", default) == PyBool(true)
    ensures UserGet(u, "uid", default) == PyStr(u.uid)
    ensures u.email.None? ==> UserGet(u, "email", default) == PyNone
    ensures UserGet(u, "password", default) == default
  {
  }

  /** `__str__`: the email when it is a non-empty string, otherwise the uid. */
  function UserDisplay(u: FirebaseUser): (text: string)
    ensures u.email.Some? && u.email.value != [] ==> text == u.email.value
    ensures u.email.None? || u.email.value == [] ==> text == u.uid
  {
    if u.email.Some? && u.email.value != [] then u.email.value else u.uid
  }
}

=== FILE: common.dfy ===
/** Small shared vocabulary: optional values (Python's None), results with a typed
    error in place of an error response, and bytes. */
module Common {

  /** `None` stands for Python's `None`. */
  datatype Option<+T> = None | Some(value: T) {

    /** The value, or `default` when absent (Python's `d.get(key, default)`). */
    function GetOr(default: T): T {
      match this
      case Some(v) => v
      case None => default
    }
  }

  /** The outcome of an operation that may answer with an error response instead. */
  datatype Result<+T, +E> = Success(value: T) | Failure(error: E)

  /** One octet of a stream's content. */
  newtype byte = x: int | 0 <= x < 256

  /** A prefix of a prefix is a prefix. */
  lemma PrefixOfPrefix<T>(a: seq<T>, b: seq<T>, c: seq<T>)
    requires |a| <= |b| <= |c| && b[..|a|] == a && c[..|b|] == b
    ensures c[..|a|] == a
  {
    assert forall i :: 0 <= i < |a| ==> c[i] == b[i];
  }

  /** The elements of `xs` that `keep` accepts, in order (a queryset `filter`). */
  function Filter<T(==,!new)>(xs: seq<T>, keep: T -> bool): (r: seq<T>)
    ensures forall x :: x in r <==> x in xs && keep(x)
    ensures forall x :: multiset(r)[x] == if keep(x) then multiset(xs)[x] else 0
  {
    if |xs| == 0 then []
    else
      var rest := Filter(xs[1..], keep);
      assert xs == [xs[0]] + xs[1..];
      if keep(xs[0]) then [xs[0]] + rest else rest
  }

  /** Concatenation is associative. */
  lemma ConcatAssoc<T>(a: seq<T>, b: seq<T>, c: seq<T>)
    ensures (a + b) + c == a + (b + c)
  {
  }
}

=== FILE: ingest.dfy ===
/** The request-level logic of the upload view before anything is stored: MIME
    classification (`detect_file_type`), the client address (`get_client_ip`), the
    `is_primary` form flag, the extension kept when a file is renamed, and the two
    validation steps of `create` (required fields, then the per-type size cap). */
module Ingest {
  import opened Common
  import opened Text
  import opened Models
  import opened Media

  // ---------------------------------------------------------------------------
  // detect_file_type
  // ---------------------------------------------------------------------------

  /** Top-level media type prefixes: "image/", "video/", "audio/"; documents have none. */
  function MimePrefix(t: FileType): Option<string> {
    match t
    case Image => Some("image/")
    case Video => Some("video/")
    case Audio => Some("audio/")
    case Document => None
  }

  /** Python's `s.startswith(p)`. */
  predicate StartsWith(s: string, p: string) {
    |p| <= |s| && s[..|p|] == p
  }

  /** `detect_file_type`: a case-sensitive prefix match, total over all strings. */
  function DetectFileType(mime: string): (t: FileType)
    ensures t == Image <==> StartsWith(mime, "image/")
    ensures t == Video <==> StartsWith(mime, "video/")
    ensures t == Audio <==> StartsWith(mime, "audio/")
    ensures t == Document <==>
              !(StartsWith(mime, "image/") || StartsWith(mime, "video/") || StartsWith(mime, "audio/"))
  {
    if StartsWith(mime, "image/") then Image
    else if StartsWith(mime, "video/") then Video
    else if StartsWith(mime, "audio/") then Audio
    else Document
  }

  /** Any subtype under a category's prefix classifies as that category; a MIME type
      under no prefix is a document. */
  lemma DetectFileTypeRoundTrip(t: FileType, subtype: string)
    ensures MimePrefix(t).Some? ==> DetectFileType(MimePrefix(t).value + subtype) == t
    ensures MimePrefix(t).None? ==> t == Document
  {
    if MimePrefix(t).Some? {
      var m := MimePrefix(t).value + subtype;
      assert m[..6] == MimePrefix(t).value;
    }
  }

  /** The cases listed for the classifier, including the empty string and an
      upper-case type, which is not an image. */
  lemma DetectFileTypeExamples()
    ensures DetectFileType("image/png") == Image
    ensures DetectFileType("video/mp4") == Video
    ensures DetectFileType("audio/mpeg") == Audio
    ensures DetectFileType("application/pdf") == Document
    ensures DetectFileType("") == Document
    ensures DetectFileType("IMAGE/PNG") == Document
    ensures DetectFileType("image") == Document
  {
    DetectFileTypeRoundTrip(Image, "png");
    assert "image/png" == "image/" + "png";
    DetectFileTypeRoundTrip(Video, "mp4");
    assert "video/mp4" == "video/" + "mp4";
    DetectFileTypeRoundTrip(Audio, "mpeg");
    assert "audio/mpeg" == "audio/" + "mpeg";
    assert "application/pdf"[..6] == "applic";
    assert "IMAGE/PNG"[..6] == "IMAGE/";
  }

  // ---------------------------------------------------------------------------
  // get_client_ip and the user agent
  // ---------------------------------------------------------------------------

  /** The request headers the views read. */
  datatype RequestMeta = RequestMeta(
    forwardedFor: Option<string>,  // HTTP_X_FORWARDED_FOR
    remoteAddr: Option<string>,    // REMOTE_ADDR
    userAgent: Option<string>      // HTTP_USER_AGENT
  )

  /** A Python string value is truthy when present and non-empty. */
  predicate Truthy(v: Option<string>) {
    v.Some? && v.value != []
  }

  /** `get_client_ip`: the first comma-separated entry of a non-empty X-Forwarded-For
      header with surrounding whitespace stripped, otherwise REMOTE_ADDR (possibly None). */
  function ClientIp(meta: RequestMeta): (ip: Option<string>)
    ensures !Truthy(meta.forwardedFor) ==> ip == meta.remoteAddr
    ensures Truthy(meta.forwardedFor) ==>
              && ip.Some?
              && ',' !in ip.value
              && |ip.value| <= |meta.forwardedFor.value|
              && (ip.value == [] || (!IsSpace(ip.value[0]) && !IsSpace(ip.value[|ip.value| - 1])))
  {
    if Truthy(meta.forwardedFor) then
      var first := BeforeComma(meta.forwardedFor.value);
      var r := Strip(first);
      assert ',' !in r by {
        var k :| OccursAt(r, first, k);
        assert forall i :: 0 <= i < |r| ==> r[i] == first[k + i];
      }
      Some(r)
    else
      meta.remoteAddr
  }

  /** The first hop of a forwarding chain is recovered exactly, whatever whitespace
      surrounds it and whatever follows the first comma. */
  lemma ClientIpFirstHop(a: string, hop: string, b: string, rest: string, meta: RequestMeta)
    requires AllSpace(a) && AllSpace(b)
    requires ',' !in hop
    requires hop == [] || (!IsSpace(hop[0]) && !IsSpace(hop[|hop| - 1]))
    requires rest == [] || rest[0] == ','
    requires a + hop + b + rest != []
    requires meta.forwardedFor == Some(a + hop + b + rest)
    ensures ClientIp(meta) == Some(hop)
  {
    var p := a + hop + b;
    assert ',' !in p by {
      assert forall i :: 0 <= i < |a| ==> p[i] == a[i];
      assert forall i :: 0 <= i < |b| ==> p[|a| + |hop| + i] == b[i];
      assert forall i :: |a| <= i < |a| + |hop| ==> p[i] == hop[i - |a|];
    }
    BeforeCommaOf(p, rest);
    assert BeforeComma(rest) == [];
    assert p + [] == p;
    StripPadded(a, hop, b);
  }

  /** The stored user agent: the header, or "" when absent, cut to 500 characters. */
  function UserAgent(meta: RequestMeta): (ua: string)
    ensures |ua| <= 500
    ensures meta.userAgent.Some? ==>
              |ua| <= |meta.userAgent.value| && ua == meta.userAgent.value[..|ua|]
    ensures meta.userAgent.Some? && |meta.userAgent.value| <= 500 ==> ua == meta.userAgent.value
    ensures meta.userAgent.None? ==> ua == []
  {
    Truncate(meta.userAgent.GetOr([]), 500)
  }

  // ---------------------------------------------------------------------------
  // The is_primary form field
  // ---------------------------------------------------------------------------

  /** `str(data.get('is_primary', 'false')).lower() == 'true'`. */
  function ParseIsPrimary(v: Option<string>): (b: bool)
    ensures b <==>
              && v.Some? && |v.value| == 4
              && v.value[0] in "tT" && v.value[1] in "rR" && v.value[2] in "uU" && v.value[3] in "eE"
  {
    Lower(v.GetOr("false")) == "true"
  }

  /** The flag is read case-insensitively; anything but a spelling of "true" is false. */
  lemma ParseIsPrimaryExamples()
    ensures ParseIsPrimary(Some("true")) && ParseIsPrimary(Some("True"))
    ensures ParseIsPrimary(Some("TRUE"))
    ensures !ParseIsPrimary(None) && !ParseIsPrimary(Some("false"))
    ensures !ParseIsPrimary(Some("1")) && !ParseIsPrimary(Some("yes")) && !ParseIsPrimary(Some(""))
  {
  }

  // ---------------------------------------------------------------------------
  // The extension kept on renaming
  // ---------------------------------------------------------------------------

  /** Position of the last `c` in `s`, or -1. */
  function LastIndexOf(s: string, c: char): (r: int)
    ensures -1 <= r < |s|
    ensures r >= 0 ==> s[r] == c
    ensures forall j :: r < j < |s| ==> s[j] != c
  {
    if |s| == 0 then -1
    else if s[|s| - 1] == c then |s| - 1
    else LastIndexOf(s[..|s| - 1], c)
  }

  /** `os.path.splitext(p)[1]` for POSIX paths: from the last dot of the last path
      component, provided that component has a character other than a dot before it
      (so ".profile" and "..." have no extension). */
  function SplitExt(p: string): (ext: string)
    ensures |ext| <= |p|
    ensures ext == [] || (ext[0] == '.' && ext == p[|p| - |ext|..])
    ensures ext != [] ==> '.' !in ext[1..] && '/' !in ext[1..]
    ensures ext != [] <==>
              exists k, d :: LastIndexOf(p, '/') < k < d < |p| && p[k] != '.' && p[d] == '.'
  {
    var sep := LastIndexOf(p, '/');
    var dot := LastIndexOf(p, '.');
    assert forall k, d :: sep < k < d < |p| && p[k] != '.' && p[d] == '.' ==> d <= dot;
    if dot > sep && exists k :: sep < k < dot && p[k] != '.' then
      assert forall j :: 0 <= j < |p[dot..]| - 1 ==> p[dot..][1..][j] == p[dot + 1 + j];
      p[dot..]
    else
      []
  }

  /** A name whose last component has an ordinary character somewhere before its final
      dot ("a.png", "a..png", "dir/x.tar.gz") has exactly the text from that dot on as
      its extension. */
  lemma SplitExtOf(stem: string, ext: string)
    requires exists k :: 0 <= k < |stem| && stem[k] != '.' && '/' !in stem[k..]
    requires '.' !in ext && '/' !in ext
    ensures SplitExt(stem + "." + ext) == "." + ext
  {
    var p := stem + "." + ext;
    var n := |stem|;
    var k :| 0 <= k < |stem| && stem[k] != '.' && '/' !in stem[k..];
    assert p[n] == '.';
    assert forall j :: n < j < |p| ==> p[j] == ext[j - n - 1];
    assert forall j :: k <= j < n ==> p[j] == stem[k..][j - k];
    var dot := LastIndexOf(p, '.');
    assert dot == n;
    var sep := LastIndexOf(p, '/');
    assert p[k] == stem[k];
    assert sep < k;
    assert p[dot..] == "." + ext;
  }

  /** A last path component made of dots followed by text without a dot (".profile",
      "...", "..rc") has no extension. */
  lemma SplitExtLeadingDots(dir: string, dots: string, rest: string)
    requires dir == [] || dir[|dir| - 1] == '/'
    requires forall i :: 0 <= i < |dots| ==> dots[i] == '.'
    requires '.' !in rest && '/' !in rest
    ensures SplitExt(dir + dots + rest) == []
  {
    var p := dir + dots + rest;
    var n := |dir| + |dots|;
    var sep := LastIndexOf(p, '/');
    assert forall j :: n <= j < |p| ==> p[j] == rest[j - n];
    assert forall j :: |dir| <= j < n ==> p[j] == dots[j - |dir|];
    if dir != [] { assert p[|dir| - 1] == '/'; }
    assert sep >= |dir| - 1;
    assert forall k, d :: sep < k < d < |p| && p[d] == '.' ==> p[k] == '.';
  }

  /** The extension appended to the fresh name: `splitext(name)[1].lower()`. */
  function Extension(name: string): (ext: string)
    ensures |ext| <= |name|
    ensures ext == [] || ext[0] == '.'
    ensures ext == [] <==> SplitExt(name) == []
    ensures forall i :: 0 <= i < |ext| ==> ext[i] != '/' && !('A' <= ext[i] <= 'Z')
  {
    var e := SplitExt(name);
    forall i | 0 < i < |e| ensures e[i] != '/' {
      assert e[1..][i - 1] == e[i];
    }
    Lower(e)
  }

  /** A name whose last component has an ordinary character before its final dot gets
      the lower-cased text after that dot, dot included, as the extension of its fresh name. */
  lemma ExtensionOf(stem: string, ext: string)
    requires exists k :: 0 <= k < |stem| && stem[k] != '.' && '/' !in stem[k..]
    requires '.' !in ext && '/' !in ext
    ensures Extension(stem + "." + ext) == "." + Lower(ext)
  {
    SplitExtOf(stem, ext);
    LowerConcat(".", ext);
  }

  // ---------------------------------------------------------------------------
  // Validation in create
  // ---------------------------------------------------------------------------

  /** An uploaded file: client-side name, declared content type, and its stream.
      Django treats a file object as false when its name is empty. */
  datatype FilePayload = FilePayload(name: string, contentType: Option<string>, stream: Stream) {
    function Size(): nat { |stream.data| }
  }

  /** The form fields `create` reads. */
  datatype CreateRequest = CreateRequest(
    file: Option<FilePayload>,
    listingType: Option<string>,
    listingId: Option<string>,
    isPrimary: Option<string>
  )

  /** The error responses of `create`; `Raised` is an exception escaping it. */
  datatype CreateError =
    | MissingFields
    | FileTooLarge(maxMegabytes: nat)
    | Raised(message: string)

  const OneMegabyte: nat := 1024 * 1024
  /** The cap used for a file type that the configuration does not list. */
  const DefaultMaxUploadSize: nat := 5 * OneMegabyte
  /** The content type assumed when the client sends none. */
  const DefaultMimeType: string := "application/octet-stream"

  /** `all([file_obj, listing_type, listing_id])`. */
  function RequiredPresent(req: CreateRequest): (ok: bool)
    ensures ok <==>
              && req.file.Some? && req.file.value.name != []
              && req.listingType !in {None, Some("")} && req.listingId !in {None, Some("")}
  {
    && req.file.Some? && req.file.value.name != []
    && Truthy(req.listingType) && Truthy(req.listingId)
  }

  /** `file_obj.content_type or 'application/octet-stream'`. */
  function EffectiveMime(contentType: Option<string>): (m: string)
    ensures Truthy(contentType) ==> m == contentType.value
    ensures !Truthy(contentType) ==> m == "application/octet-stream" && DetectFileType(m) == Document
  {
    if Truthy(contentType) then contentType.value
    else
      assert DefaultMimeType[..6] == "applic";
      DefaultMimeType
  }

  /** `MAX_UPLOAD_SIZE.get(file_type, 5 * 1024 * 1024)`. */
  function MaxUploadSize(limits: map<FileType, nat>, t: FileType): (cap: nat)
    ensures t in limits ==> cap == limits[t]
    ensures t !in limits ==> cap == 5 * 1024 * 1024
  {
    if t in limits then limits[t] else DefaultMaxUploadSize
  }

  /** What passed validation. */
  datatype Admitted = Admitted(
    file: FilePayload,
    listingType: string,
    listingId: string,
    mimeType: string,
    fileType: FileType
  )

  /** The validation prefix of `create`: the required fields first, then the size
      against the cap of the detected type. A file exactly at the cap is accepted. */
  function Admit(req: CreateRequest, limits: map<FileType, nat>): (r: Result<Admitted, CreateError>)
    ensures r == Failure(MissingFields) <==> !RequiredPresent(req)
    ensures r.Failure? && r.error.FileTooLarge? <==>
              RequiredPresent(req)
              && req.file.value.Size()
                 > MaxUploadSize(limits, DetectFileType(EffectiveMime(req.file.value.contentType)))
    ensures r.Failure? && r.error.FileTooLarge? ==>
              r.error.maxMegabytes
              == MaxUploadSize(limits, DetectFileType(EffectiveMime(req.file.value.contentType))) / OneMegabyte
    ensures r.Failure? ==> !r.error.Raised?
    ensures r.Success? ==>
              && r.value.file == req.file.value
              && Some(r.value.listingType) == req.listingType
              && Some(r.value.listingId) == req.listingId
              && r.value.mimeType == EffectiveMime(req.file.value.contentType)
              && r.value.fileType == DetectFileType(r.value.mimeType)
              && r.value.file.Size() <= MaxUploadSize(limits, r.value.fileType)
  {
    if !RequiredPresent(req) then Failure(MissingFields)
    else
      var f := req.file.value;
      var mime := EffectiveMime(f.contentType);
      var t := DetectFileType(mime);
      var cap := MaxUploadSize(limits, t);
      if f.Size() > cap then Failure(FileTooLarge(cap / OneMegabyte))
      else Success(Admitted(f, req.listingType.value, req.listingId.value, mime, t))
  }
}

=== FILE: listing.dfy ===
/** The per-file actions of the upload view set that work on stored rows
    (`set_primary`, `by_listing` and `destroy` in `apps/upload/views.py`). Single-row
    lookups go through the caller-scoped queryset, so a row of another user is "not
    found"; `by_listing` queries the whole table. */
module Listing {
  import opened Common
  import opened Models
  import opened Ingest
  import opened Upload

  /** The error responses of these actions. */
  datatype ViewError = NotFound | MissingListingParams

  // ---------------------------------------------------------------------------
  // get_object through get_queryset
  // ---------------------------------------------------------------------------

  /** Position of the first row at or after `from` with key `id` owned by `caller`. */
  function FindOwnedFrom(files: seq<UploadedFile>, caller: string, id: nat, from: nat)
    : (r: Option<nat>)
    requires from <= |files|
    ensures r.Some? ==> from <= r.value < |files| && files[r.value].id == id
                        && files[r.value].userUid == caller
    ensures r.Some? ==> forall i :: from <= i < r.value ==> !(files[i].id == id && files[i].userUid == caller)
    ensures r.None? ==> forall i :: from <= i < |files| ==> !(files[i].id == id && files[i].userUid == caller)
    decreases |files| - from
  {
    if from == |files| then None
    else if files[from].id == id && files[from].userUid == caller then Some(from)
    else FindOwnedFrom(files, caller, id, from + 1)
  }

  /** `self.get_object()`: the caller's row with key `id`, by position. */
  function FindOwned(files: seq<UploadedFile>, caller: string, id: nat): (r: Option<nat>)
    ensures r.Some? ==> r.value < |files| && files[r.value].id == id && files[r.value].userUid == caller
    ensures r.None? <==> forall i :: 0 <= i < |files| ==> !(files[i].id == id && files[i].userUid == caller)
  {
    FindOwnedFrom(files, caller, id, 0)
  }

  // ---------------------------------------------------------------------------
  // set_primary
  // ---------------------------------------------------------------------------

  /** The bulk update `filter(listing_type=…, listing_id=…, user_uid=…).update(is_primary=False)`. */
  function ClearPrimary(files: seq<UploadedFile>, k: ListingKey): (r: seq<UploadedFile>)
    ensures |r| == |files|
    ensures forall i :: 0 <= i < |files| && KeyOf(files[i]) == k ==> r[i] == files[i].(isPrimary := false)
    ensures forall i :: 0 <= i < |files| && KeyOf(files[i]) != k ==> r[i] == files[i]
  {
    seq(|files|, i requires 0 <= i < |files| =>
      if KeyOf(files[i]) == k then files[i].(isPrimary := false) else files[i])
  }

  /** `set_primary`: clear the flag on every row of the caller under the target's
      listing, then save the target (as loaded before the update) with the flag set. */
  function SetPrimary(s: Store, caller: string, fileId: nat): (r: Result<Store, ViewError>)
    ensures r.Failure? <==> FindOwned(s.files, caller, fileId).None?
    ensures r.Failure? ==> r.error == NotFound
    ensures r.Success? ==>
              var t := FindOwned(s.files, caller, fileId).value;
              var k := KeyOf(s.files[t]);
              var files := r.value.files;
              && r.value == s.(files := files)
              && |files| == |s.files|
              && files[t] == Save(s.files[t].(isPrimary := true)) && files[t].isPrimary
              && (forall i :: 0 <= i < |files| && i != t && KeyOf(s.files[i]) == k ==>
                    files[i] == s.files[i].(isPrimary := false))
              && (forall i :: 0 <= i < |files| && KeyOf(s.files[i]) != k ==> files[i] == s.files[i])
  {
    match FindOwned(s.files, caller, fileId)
    case None => Failure(NotFound)
    case Some(t) =>
      var target := s.files[t];
      var cleared := ClearPrimary(s.files, ListingKey(target.listingType, target.listingId, caller));
      Success(s.(files := cleared[t := Save(target.(isPrimary := true))]))
  }

  /** After `set_primary` the target is the one primary file of its listing key: every
      other file of that user and listing is not primary. */
  lemma SetPrimaryExactlyOne(s: Store, caller: string, fileId: nat)
    requires Valid(s)
    requires SetPrimary(s, caller, fileId).Success?
    ensures var files := SetPrimary(s, caller, fileId).value.files;
            var t := FindOwned(s.files, caller, fileId).value;
            && files[t].id == fileId && files[t].isPrimary
            && forall i :: 0 <= i < |files| && KeyOf(files[i]) == KeyOf(files[t]) ==>
                 (files[i].isPrimary <==> files[i].id == fileId)
  {
    var files := SetPrimary(s, caller, fileId).value.files;
    var t := FindOwned(s.files, caller, fileId).value;
    forall i | 0 <= i < |files| && KeyOf(files[i]) == KeyOf(files[t])
      ensures files[i].isPrimary <==> files[i].id == fileId
    {
      if i != t {
        assert KeyOf(files[i]) == KeyOf(s.files[i]);
        if i < t { assert s.files[i].id < s.files[t].id; }
        if t < i { assert s.files[t].id < s.files[i].id; }
      }
    }
  }

  /** `set_primary` changes no row's key, id or owner, and nothing outside the table. */
  lemma SetPrimaryKeepsRows(s: Store, caller: string, fileId: nat)
    requires SetPrimary(s, caller, fileId).Success?
    ensures var t := SetPrimary(s, caller, fileId).value;
            && t == s.(files := t.files)
            && |t.files| == |s.files|
            && forall i :: 0 <= i < |t.files| ==>
                 KeyOf(t.files[i]) == KeyOf(s.files[i]) && t.files[i].id == s.files[i].id
  {
  }

  /** `set_primary` restores the single-primary invariant under the target's key and
      keeps it under every other key, so it holds everywhere afterwards whenever it
      held before. It also keeps the keys and the store's invariants. */
  lemma SetPrimaryKeepsSinglePrimary(s: Store, caller: string, fileId: nat)
    requires Valid(s)
    requires SetPrimary(s, caller, fileId).Success?
    ensures var t := SetPrimary(s, caller, fileId).value;
            && Valid(t)
            && AtMostOnePrimary(t.files, KeyOf(s.files[FindOwned(s.files, caller, fileId).value]))
            && (SinglePrimaryEverywhere(s.files) ==> SinglePrimaryEverywhere(t.files))
  {
    var t := SetPrimary(s, caller, fileId).value;
    var files := t.files;
    var p := FindOwned(s.files, caller, fileId).value;
    var k := KeyOf(s.files[p]);
    SetPrimaryKeepsRows(s, caller, fileId);
    SameKeysValid(s, files);
    SetPrimaryExactlyOne(s, caller, fileId);
    if SinglePrimaryEverywhere(s.files) {
      forall i, j | 0 <= i < j < |files| && KeyOf(files[i]) == KeyOf(files[j])
        ensures !(files[i].isPrimary && files[j].isPrimary)
      {
        if KeyOf(files[i]) != k {
          assert files[i] == s.files[i] && files[j] == s.files[j];
        }
      }
    }
  }

  /** Setting the same file primary twice is the same as setting it once. */
  lemma SetPrimaryIdempotent(s: Store, caller: string, fileId: nat)
    requires SetPrimary(s, caller, fileId).Success?
    ensures SetPrimary(SetPrimary(s, caller, fileId).value, caller, fileId)
            == SetPrimary(s, caller, fileId)
  {
    var s1 := SetPrimary(s, caller, fileId).value;
    var t := FindOwned(s.files, caller, fileId).value;
    var k := KeyOf(s.files[t]);
    SetPrimaryKeepsRows(s, caller, fileId);
    FindOwnedSameRows(s.files, s1.files, caller, fileId, 0);
    var s2 := SetPrimary(s1, caller, fileId).value;
    SaveIdempotent(s.files[t].(isPrimary := true));
    assert s2.files[t] == s1.files[t];
    assert s2.files == s1.files;
  }

  /** The lookup depends only on keys and owners. */
  lemma {:induction false} FindOwnedSameRows(a: seq<UploadedFile>, b: seq<UploadedFile>, caller: string,
                                             id: nat, from: nat)
    requires |a| == |b| && from <= |a|
    requires forall i :: 0 <= i < |a| ==> a[i].id == b[i].id && a[i].userUid == b[i].userUid
    ensures FindOwnedFrom(a, caller, id, from) == FindOwnedFrom(b, caller, id, from)
    decreases |a| - from
  {
    if from < |a| {
      FindOwnedSameRows(a, b, caller, id, from + 1);
    }
  }

  // ---------------------------------------------------------------------------
  // by_listing
  // ---------------------------------------------------------------------------

  /** The listing order: primary files first, then newest first. */
  function ListedBefore(a: UploadedFile, b: UploadedFile): (first: bool)
    ensures a.isPrimary != b.isPrimary ==> (first <==> a.isPrimary)
    ensures a.isPrimary == b.isPrimary ==> (first <==> a.uploadedAt >= b.uploadedAt)
  {
    (a.isPrimary && !b.isPrimary) || (a.isPrimary == b.isPrimary && a.uploadedAt >= b.uploadedAt)
  }

  predicate ListingOrdered(xs: seq<UploadedFile>) {
    forall i, j :: 0 <= i < j < |xs| ==> ListedBefore(xs[i], xs[j])
  }

  /** `filter(listing_type=…, listing_id=…)` over every user's rows. */
  function FilterListing(files: seq<UploadedFile>, listingType: string, listingId: string)
    : (r: seq<UploadedFile>)
    ensures forall f :: f in r <==> f in files && f.listingType == listingType && f.listingId == listingId
    ensures forall f :: multiset(r)[f] ==
              if f.listingType == listingType && f.listingId == listingId then multiset(files)[f] else 0
  {
    Filter(files, (f: UploadedFile) => f.listingType == listingType && f.listingId == listingId)
  }

  /** A row that lists before every row of an ordered list can go first. */
  lemma ConsOrdered(x: UploadedFile, rest: seq<UploadedFile>)
    requires ListingOrdered(rest)
    requires forall k :: 0 <= k < |rest| ==> ListedBefore(x, rest[k])
    ensures ListingOrdered([x] + rest)
  {
    var r := [x] + rest;
    forall i, j | 0 <= i < j < |r| ensures ListedBefore(r[i], r[j]) {
      assert r[j] == rest[j - 1];
      if i > 0 { assert r[i] == rest[i - 1]; }
    }
  }

  /** The listing order is transitive. */
  lemma ListedBeforeTransitive(a: UploadedFile, b: UploadedFile, c: UploadedFile)
    requires ListedBefore(a, b) && ListedBefore(b, c)
    ensures ListedBefore(a, c)
  {
  }

  /** The head of an ordered list lists before every row of a rearrangement of its
      tail together with a row it lists before. */
  lemma HeadStaysFirst(xs: seq<UploadedFile>, x: UploadedFile, rest: seq<UploadedFile>)
    requires |xs| > 0 && ListingOrdered(xs) && ListedBefore(xs[0], x)
    requires multiset(rest) == multiset(xs[1..]) + multiset{x}
    ensures forall k :: 0 <= k < |rest| ==> ListedBefore(xs[0], rest[k])
  {
    forall k | 0 <= k < |rest| ensures ListedBefore(xs[0], rest[k]) {
      assert rest[k] in multiset(rest);
      if rest[k] != x {
        assert rest[k] in multiset(xs[1..]);
        var j :| 0 <= j < |xs[1..]| && xs[1..][j] == rest[k];
        assert xs[j + 1] == rest[k];
      }
    }
  }

  /** Places `x` into an ordered list after every row that lists before it. */
  function Insert(x: UploadedFile, xs: seq<UploadedFile>): (r: seq<UploadedFile>)
    requires ListingOrdered(xs)
    ensures ListingOrdered(r)
    ensures multiset(r) == multiset(xs) + multiset{x}
  {
    if |xs| == 0 then [x]
    else if ListedBefore(xs[0], x) then
      var rest := Insert(x, xs[1..]);
      assert xs == [xs[0]] + xs[1..];
      HeadStaysFirst(xs, x, rest);
      ConsOrdered(xs[0], rest);
      [xs[0]] + rest
    else
      assert forall k :: 0 <= k < |xs| ==> ListedBefore(x, xs[k]) by {
        forall k | 0 <= k < |xs| ensures ListedBefore(x, xs[k]) {
          if k > 0 { ListedBeforeTransitive(x, xs[0], xs[k]); }
        }
      }
      ConsOrdered(x, xs);
      [x] + xs
  }

  /** `order_by('-is_primary', '-uploaded_at')`. The query fixes no order among rows
      that tie on both keys, and neither does this function's contract. */
  function SortForListing(xs: seq<UploadedFile>): (r: seq<UploadedFile>)
    ensures ListingOrdered(r)
    ensures multiset(r) == multiset(xs)
  {
    if |xs| == 0 then []
    else
      assert xs == [xs[0]] + xs[1..];
      Insert(xs[0], SortForListing(xs[1..]))
  }

  /** `by_listing`: both query parameters are required; the answer is every row of the
      listing, whoever uploaded it, primary rows first and newest first. */
  function ByListing(s: Store, listingType: Option<string>, listingId: Option<string>)
    : (r: Result<seq<UploadedFile>, ViewError>)
    ensures r.Failure? <==> !Truthy(listingType) || !Truthy(listingId)
    ensures r.Failure? ==> r.error == MissingListingParams
    ensures r.Success? ==>
              && ListingOrdered(r.value)
              && multiset(r.value) == multiset(FilterListing(s.files, listingType.value, listingId.value))
              && (forall f :: f in r.value <==>
                    f in s.files && f.listingType == listingType.value && f.listingId == listingId.value)
              && forall f :: multiset(r.value)[f] ==
                   if f.listingType == listingType.value && f.listingId == listingId.value
                   then multiset(s.files)[f] else 0
  {
    if !Truthy(listingType) || !Truthy(listingId) then Failure(MissingListingParams)
    else
      var matching := FilterListing(s.files, listingType.value, listingId.value);
      var sorted := SortForListing(matching);
      assert forall f :: f in sorted <==> f in multiset(sorted);
      Success(sorted)
  }

  // ---------------------------------------------------------------------------
  // destroy
  // ---------------------------------------------------------------------------

  /** `destroy`: writes the `delete` log row first, then deletes the row together with
      its blobs. */
  function Destroy(s: Store, caller: string, fileId: nat, meta: RequestMeta, now: int)
    : (r: Result<Store, ViewError>)
    ensures r.Failure? <==> FindOwned(s.files, caller, fileId).None?
    ensures r.Failure? ==> r.error == NotFound
    ensures r.Success? ==>
              var rec := s.files[FindOwned(s.files, caller, fileId).value];
              var t := r.value;
              && |t.logs| == |s.logs| + 1 && t.logs[..|s.logs|] == s.logs
              && t.logs[|s.logs|].action == Delete
              && t.logs[|s.logs|].fileId == Some(fileId)
              && t.logs[|s.logs|].userUid == caller
              && t.logs[|s.logs|].fileName == (if rec.file.Some? then rec.file.value.name else "unknown")
              && t.logs[|s.logs|].fileSize == rec.fileSize
              && t.logs[|s.logs|].ipAddress == ClientIp(meta)
              && t.logs[|s.logs|].userAgent == Some(UserAgent(meta))
              && t.logs[|s.logs|].timestamp == now
              && (forall b :: b in t.blobs <==> b in s.blobs && b !in Owned(rec))
              && (forall f :: f in t.files <==> f in s.files && f.id != fileId)
    ensures r.Success? && Valid(s) ==> Valid(r.value)
  {
    match FindOwned(s.files, caller, fileId)
    case None => Failure(NotFound)
    case Some(i) =>
      var rec := s.files[i];
      var name := if rec.file.Some? then rec.file.value.name else "unknown";
      var logged := AppendLog(s, caller, Delete, Some(rec.id), name, rec.fileSize, ClientIp(meta),
                              Some(UserAgent(meta)), now);
      Success(DeleteRecord(logged, rec))
  }

  /** The delete log row outlives its file: after `destroy` no row carries the id the
      log row refers to, while the log row stays. */
  lemma DestroyLeavesDanglingLog(s: Store, caller: string, fileId: nat, meta: RequestMeta, now: int)
    requires Destroy(s, caller, fileId, meta, now).Success?
    ensures var t := Destroy(s, caller, fileId, meta, now).value;
            && t.logs[|s.logs|].fileId == Some(fileId)
            && forall f :: f in t.files ==> f.id != fileId
  {
  }

  /** Destroying the caller's newest row in a valid store leaves exactly the earlier rows,
      removes the row's blobs and appends one delete row for its id. */
  lemma DestroyNewest(s: Store, caller: string, meta: RequestMeta, now: int)
    requires Valid(s) && |s.files| > 0 && s.files[|s.files| - 1].userUid == caller
    ensures var r := s.files[|s.files| - 1];
            var d := Destroy(s, caller, r.id, meta, now);
            && d.Success?
            && (forall f :: f in d.value.files <==> f in s.files[..|s.files| - 1])
            && d.value.blobs == s.blobs - Owned(r)
            && |d.value.logs| == |s.logs| + 1 && d.value.logs[..|s.logs|] == s.logs
            && d.value.logs[|s.logs|].action == Delete && d.value.logs[|s.logs|].fileId == Some(r.id)
  {
    var n := |s.files| - 1;
    var r := s.files[n];
    assert FindOwned(s.files, caller, r.id) == Some(n);
    OthersAreEarlier(s.files);
  }

  /** Deleting a file just created by the same caller takes back its row and its blobs:
      the rows are the earlier ones again, and the log keeps both the upload and the
      delete row for the same id. */
  lemma CreateThenDestroy(s: Store, caller: string, req: CreateRequest, meta: RequestMeta,
                          env: Env, supply: Fresh, meta2: RequestMeta, later: int)
    requires Valid(s)
    requires Create(s, caller, req, meta, env, supply).result.Success?
    ensures var out := Create(s, caller, req, meta, env, supply);
            var r := out.result.value;
            var d := Destroy(out.store, caller, r.id, meta2, later);
            && d.Success?
            && (forall f :: f in d.value.files <==> f in s.files)
            && d.value.blobs == s.blobs - Owned(r)
            && |d.value.logs| == |s.logs| + 2
            && d.value.logs[|s.logs|].action == Upload && d.value.logs[|s.logs| + 1].action == Delete
            && d.value.logs[|s.logs|].fileId == d.value.logs[|s.logs| + 1].fileId == Some(r.id)
  {
    var out := Create(s, caller, req, meta, env, supply);
    var r := out.result.value;
    CreateLogsUpload(s, caller, req, meta, env, supply);
    CreateRecordsRequest(s, caller, req, meta, env, supply);
    var t := out.store;
    assert t.files[..|t.files| - 1] == s.files;
    DestroyNewest(t, caller, meta2, later);
  }
}

=== FILE: media.dfy ===
/** Image introspection and thumbnail derivation (`get_image_dimensions` and
    `generate_thumbnail` in `apps/upload/views.py`). The imaging library is reduced to an
    abstract codec: `open` reads an image header or fails, `render` converts, resizes and
    JPEG-encodes a picture along a plan or fails. What the model keeps is what the views
    do around those calls: the outcomes, the colour-mode plan, the constants, and the
    read position of the upload stream. */
module Media {
  import opened Common

  /** A rewindable upload stream: its content and its read position. */
  datatype Stream = Stream(data: seq<byte>, pos: nat)

  /** What the imaging library reports on opening an image. */
  datatype Picture = Picture(width: nat, height: nat, mode: string)

  /** One step of the colour normalisation before resizing. */
  datatype ModeStep =
    | ExpandPalette          // convert a palette image to RGBA
    | PasteOnWhiteWithAlpha  // paste onto an opaque white RGB canvas, alpha band as mask
    | PasteOnWhite           // paste onto an opaque white RGB canvas without a mask
    | ConvertToRgb           // direct conversion to RGB

  /** The colour mode after one step. */
  function StepMode(mode: string, step: ModeStep): string {
    match step
    case ExpandPalette => "RGBA"
    case PasteOnWhiteWithAlpha => "RGB"
    case PasteOnWhite => "RGB"
    case ConvertToRgb => "RGB"
  }

  /** The colour mode after a sequence of steps. */
  function ModeAfter(mode: string, steps: seq<ModeStep>): string
    decreases |steps|
  {
    if |steps| == 0 then mode else ModeAfter(StepMode(mode, steps[0]), steps[1..])
  }

  /** The normalisation the thumbnail generator applies to a picture of `mode`. RGBA and
      LA pictures and (after expansion to RGBA) palette pictures are pasted onto white;
      only an RGBA source, which a palette source becomes, donates its alpha band as
      the mask, so an LA picture is pasted without one. Any other non-RGB mode is
      converted directly. */
  function ModeSteps(mode: string): (steps: seq<ModeStep>)
    ensures ModeAfter(mode, steps) == "RGB"
    ensures PasteOnWhiteWithAlpha in steps <==> mode == "RGBA" || mode == "P"
    ensures PasteOnWhite in steps <==> mode == "LA"
    ensures steps == [] <==> mode == "RGB"
    ensures ExpandPalette in steps <==> mode == "P"
    ensures mode == "P" ==> steps[0] == ExpandPalette
    ensures ConvertToRgb in steps <==> mode !in {"RGB", "RGBA", "LA", "P"}
    ensures ConvertToRgb in steps ==> steps == [ConvertToRgb]
  {
    if mode == "P" then [ExpandPalette, PasteOnWhiteWithAlpha]
    else if mode == "RGBA" then [PasteOnWhiteWithAlpha]
    else if mode == "LA" then [PasteOnWhite]
    else if mode != "RGB" then [ConvertToRgb]
    else []
  }

  /** Everything the thumbnail generator asks of the imaging library for one picture. */
  datatype ThumbnailPlan = ThumbnailPlan(
    steps: seq<ModeStep>,
    maxWidth: nat,
    maxHeight: nat,
    format: string,
    quality: nat,
    optimize: bool
  )

  /** The default bounding box of a thumbnail and its JPEG quality. */
  const ThumbnailWidth: nat := 400
  const ThumbnailHeight: nat := 300
  const JpegQuality: nat := 75

  function PlanFor(p: Picture): (plan: ThumbnailPlan)
    ensures ModeAfter(p.mode, plan.steps) == "RGB"
    ensures plan.maxWidth == ThumbnailWidth && plan.maxHeight == ThumbnailHeight
    ensures plan.format == "JPEG" && plan.quality == JpegQuality && plan.optimize
  {
    ThumbnailPlan(ModeSteps(p.mode), ThumbnailWidth, ThumbnailHeight, "JPEG", JpegQuality, true)
  }

  /** The imaging library, abstractly. `None` stands for any exception it raises. */
  datatype ImageCodec = ImageCodec(
    open: seq<byte> -> Option<Picture>,
    render: (Picture, ThumbnailPlan) -> Option<seq<byte>>
  )

  /** Result of `get_image_dimensions`: a width and a height, and the stream after. */
  datatype Probe = Probe(width: Option<int>, height: Option<int>, stream: Stream)

  /** `get_image_dimensions`: rewinds, opens, and reports the size; any failure yields
      `(None, None)`; on every path the stream is left rewound and unread. */
  function ImageDimensions(s: Stream, codec: ImageCodec): (p: Probe)
    ensures p.stream == s.(pos := 0)
    ensures p.width.Some? <==> p.height.Some?
    ensures p.width.Some? <==> codec.open(s.data).Some?
    ensures p.width.Some? ==>
              p.width.value == codec.open(s.data).value.width
              && p.height.value == codec.open(s.data).value.height
  {
    var rewound := s.(pos := 0);
    match codec.open(rewound.data)
    case Some(pic) => Probe(Some(pic.width), Some(pic.height), rewound)
    case None => Probe(None, None, rewound)
  }

  /** Result of `generate_thumbnail`: the JPEG bytes if any, and the stream after. */
  datatype Thumbnail = Thumbnail(bytes: Option<seq<byte>>, stream: Stream)

  /** `generate_thumbnail` with its default 400x300 box: rewinds, opens, normalises the
      colour mode, resizes and encodes; any failure yields `None`; on every path the
      stream is left rewound and unread. */
  function GenerateThumbnail(s: Stream, codec: ImageCodec): (t: Thumbnail)
    ensures t.stream == s.(pos := 0)
    ensures codec.open(s.data).None? ==> t.bytes.None?
    ensures codec.open(s.data).Some? ==>
              t.bytes == codec.render(codec.open(s.data).value, PlanFor(codec.open(s.data).value))
  {
    var rewound := s.(pos := 0);
    match codec.open(rewound.data)
    case Some(pic) => Thumbnail(codec.render(pic, PlanFor(pic)), rewound)
    case None => Thumbnail(None, rewound)
  }

  /** A stream that yields a thumbnail also yields its dimensions, and both leave the
      stream in the same state, so they can run one after the other in either order. */
  lemma ThumbnailImpliesDimensions(s: Stream, codec: ImageCodec)
    ensures GenerateThumbnail(s, codec).bytes.Some? ==> ImageDimensions(s, codec).width.Some?
    ensures ImageDimensions(s, codec).stream == GenerateThumbnail(s, codec).stream
    ensures ImageDimensions(ImageDimensions(s, codec).stream, codec) == ImageDimensions(s, codec)
  {
  }
}

=== FILE: models.dfy ===
/** The two models of the upload app (`apps/upload/models.py`): uploaded-file metadata
    rows and the upload audit log, together with the abstract store they live in. */
module Models {
  import opened Common

  // ---------------------------------------------------------------------------
  // Choices
  // ---------------------------------------------------------------------------

  /** The `file_type` choices. */
  datatype FileType = Image | Video | Audio | Document {
    function Name(): string {
      match this
      case Image => "image"
      case Video => "video"
      case Audio => "audio"
      case Document => "document"
    }
  }

  /** The column default of `file_type`. */
  const DefaultFileType: FileType := Image

  /** The `listing_type` choices. */
  datatype ListingType = House | Car {
    function Name(): string {
      match this
      case House => "house"
      case Car => "car"
    }
  }

  /** The stored value a `file_type` choice is written as, read back. */
  function FileTypeChoice(s: string): (t: Option<FileType>)
    ensures t.Some? ==> t.value.Name() == s
  {
    if s == "image" then Some(Image)
    else if s == "video" then Some(Video)
    else if s == "audio" then Some(Audio)
    else if s == "document" then Some(Document)
    else None
  }

  /** The stored value a `listing_type` choice is written as, read back. */
  function ListingTypeChoice(s: string): (t: Option<ListingType>)
    ensures t.Some? ==> t.value.Name() == s
  {
    if s == "house" then Some(House) else if s == "car" then Some(Car) else None
  }

  /** Every choice reads back as itself, so the choices are exactly the four file types
      and the two listing types. */
  lemma ChoicesRoundTrip(t: FileType, l: ListingType)
    ensures FileTypeChoice(t.Name()) == Some(t)
    ensures ListingTypeChoice(l.Name()) == Some(l)
    ensures FileTypeChoice("IMAGE") == None && ListingTypeChoice("boat") == None
  {
  }

  // ---------------------------------------------------------------------------
  // UploadedFile
  // ---------------------------------------------------------------------------

  /** A storage name. A file field whose name is empty counts as no file, so a stored
      object always has a non-empty name. */
  type BlobName = s: string | s != [] witness "x"

  /** A stored object in the blob store, as a file field refers to it: its storage
      name and the size the storage reports. An empty file field is `None`. */
  datatype Blob = Blob(name: BlobName, size: nat)

  /** One `UploadedFile` row. `listingType` holds whatever string was written: the
      choices are not enforced when a row is created. `uploadedAt` is the creation
      time as a number (earlier is smaller). */
  datatype UploadedFile = UploadedFile(
    id: nat,
    userUid: string,
    listingType: string,
    listingId: string,
    fileType: FileType,
    file: Option<Blob>,
    thumbnail: Option<Blob>,
    isPrimary: bool,
    fileSize: int,
    mimeType: string,
    width: Option<int>,
    height: Option<int>,
    uploadedAt: int
  )

  /** A row built with only the required fields given; every other field takes its
      column default. */
  function NewRecord(id: nat, userUid: string, listingType: string, listingId: string,
                     file: Option<Blob>, uploadedAt: int): (r: UploadedFile)
    ensures r.fileType == DefaultFileType
    ensures !r.isPrimary && r.fileSize == 0 && r.mimeType == ""
    ensures r.thumbnail.None? && r.width.None? && r.height.None?
  {
    UploadedFile(id, userUid, listingType, listingId, DefaultFileType, file, None,
                 false, 0, "", None, None, uploadedAt)
  }

  /** The `save` override: a zero `file_size` is filled in from the stored file's size
      when there is a file; nothing else about the row changes. */
  function Save(r: UploadedFile): (s: UploadedFile)
    ensures s == r.(fileSize := s.fileSize)
    ensures r.file.Some? && r.fileSize == 0 ==> s.fileSize == r.file.value.size
    ensures !(r.file.Some? && r.fileSize == 0) ==> s.fileSize == r.fileSize
  {
    if r.file.Some? && r.fileSize == 0 then r.(fileSize := r.file.value.size) else r
  }

  /** Saving twice is saving once. */
  lemma SaveIdempotent(r: UploadedFile)
    ensures Save(Save(r)) == Save(r)
  {
  }

  /** A row created with defaults records its file's size on its first save. */
  lemma SaveFillsNewRecord(id: nat, userUid: string, listingType: string, listingId: string,
                           b: Blob, uploadedAt: int)
    ensures Save(NewRecord(id, userUid, listingType, listingId, Some(b), uploadedAt)).fileSize == b.size
  {
  }

  /** The `url` property: the stored file's URL below `mediaUrl`, or `None` when the row
      has no file. */
  function Url(r: UploadedFile, mediaUrl: string): (u: Option<string>)
    ensures u.None? <==> r.file.None?
    ensures u.Some? ==> u.value == mediaUrl + r.file.value.name
  {
    match r.file
    case Some(b) => Some(mediaUrl + b.name)
    case None => None
  }

  /** The `thumbnail_url` property, likewise for the thumbnail. */
  function ThumbnailUrl(r: UploadedFile, mediaUrl: string): (u: Option<string>)
    ensures u.None? <==> r.thumbnail.None?
    ensures u.Some? ==> u.value == mediaUrl + r.thumbnail.value.name
  {
    match r.thumbnail
    case Some(b) => Some(mediaUrl + b.name)
    case None => None
  }

  /** The blobs a row owns: its file and its thumbnail, where present. */
  function Owned(r: UploadedFile): set<string> {
    (if r.file.Some? then {r.file.value.name} else {})
    + (if r.thumbnail.Some? then {r.thumbnail.value.name} else {})
  }

  // ---------------------------------------------------------------------------
  // FileUploadLog
  // ---------------------------------------------------------------------------

  /** The actions a log row records; the views write only `Upload` and `Delete`. */
  datatype LogAction = Upload | Delete | Update {
    function Name(): string {
      match this
      case Upload => "upload"
      case Delete => "delete"
      case Update => "update"
    }
  }

  /** One `FileUploadLog` row. `fileId` is a plain nullable number, not a foreign key:
      nothing ties it to an existing `UploadedFile`, so log rows outlive their files. */
  datatype FileUploadLog = FileUploadLog(
    id: nat,
    userUid: string,
    action: LogAction,
    fileId: Option<nat>,
    fileName: string,
    fileSize: int,
    ipAddress: Option<string>,
    userAgent: Option<string>,
    timestamp: int
  )

  // ---------------------------------------------------------------------------
  // The store
  // ---------------------------------------------------------------------------

  /** Both tables in insertion order, the names held by the blob store, and the next
      value of each table's auto-increment key. */
  datatype Store = Store(
    files: seq<UploadedFile>,
    logs: seq<FileUploadLog>,
    blobs: set<string>,
    nextFileId: nat,
    nextLogId: nat
  )

  /** Primary keys: assigned in increasing order and below the next key to hand out. */
  predicate Valid(s: Store) {
    && (forall i :: 0 <= i < |s.files| ==> s.files[i].id < s.nextFileId)
    && IdsIncreasing(s.files)
    && (forall i :: 0 <= i < |s.logs| ==> s.logs[i].id < s.nextLogId)
    && (forall i, j :: 0 <= i < j < |s.logs| ==> s.logs[i].id < s.logs[j].id)
  }

  /** Row keys strictly increase along the table. */
  predicate IdsIncreasing(files: seq<UploadedFile>) {
    forall i, j :: 0 <= i < j < |files| ==> files[i].id < files[j].id
  }

  /** The rows other than the one with key `id`, in their order. */
  function RemoveById(files: seq<UploadedFile>, id: nat): (r: seq<UploadedFile>)
    ensures |r| <= |files|
  {
    if |files| == 0 then []
    else if files[0].id == id then RemoveById(files[1..], id)
    else [files[0]] + RemoveById(files[1..], id)
  }

  /** Removal keeps exactly the rows with another key. */
  lemma {:induction false} RemoveByIdMembers(files: seq<UploadedFile>, id: nat)
    ensures forall f :: f in RemoveById(files, id) <==> f in files && f.id != id
  {
    if |files| > 0 {
      RemoveByIdMembers(files[1..], id);
      assert files == [files[0]] + files[1..];
    }
  }

  /** A row with a smaller key than every row of an increasing table can go first. */
  lemma ConsIncreasing(x: UploadedFile, rest: seq<UploadedFile>)
    requires IdsIncreasing(rest)
    requires forall k :: 0 <= k < |rest| ==> x.id < rest[k].id
    ensures IdsIncreasing([x] + rest)
  {
    var r := [x] + rest;
    forall i, j | 0 <= i < j < |r| ensures r[i].id < r[j].id {
      assert r[j] == rest[j - 1];
      if i > 0 { assert r[i] == rest[i - 1]; }
    }
  }

  /** Removal keeps the keys increasing. */
  lemma {:induction false} RemoveByIdIncreasing(files: seq<UploadedFile>, id: nat)
    requires IdsIncreasing(files)
    ensures IdsIncreasing(RemoveById(files, id))
  {
    if |files| > 0 {
      var rest := RemoveById(files[1..], id);
      RemoveByIdIncreasing(files[1..], id);
      if files[0].id != id {
        RemoveByIdMembers(files[1..], id);
        forall k | 0 <= k < |rest| ensures files[0].id < rest[k].id {
          assert rest[k] in files[1..];
          var j :| 0 <= j < |files[1..]| && files[1..][j] == rest[k];
          assert files[j + 1] == rest[k];
        }
        ConsIncreasing(files[0], rest);
      }
    }
  }

  /** The `delete` override: the file's blob and the thumbnail's blob are removed when
      present (removing an absent name changes nothing), then the row itself. */
  function DeleteRecord(s: Store, r: UploadedFile): (t: Store)
    ensures forall b :: b in t.blobs <==> b in s.blobs && b !in Owned(r)
    ensures forall f :: f in t.files <==> f in s.files && f.id != r.id
    ensures t.logs == s.logs && t.nextFileId == s.nextFileId && t.nextLogId == s.nextLogId
    ensures Valid(s) ==> Valid(t)
  {
    var afterFile := if r.file.Some? then s.blobs - {r.file.value.name} else s.blobs;
    var afterThumb := if r.thumbnail.Some? then afterFile - {r.thumbnail.value.name} else afterFile;
    var files := RemoveById(s.files, r.id);
    RemoveByIdMembers(s.files, r.id);
    if Valid(s) then
      RemoveByIdIncreasing(s.files, r.id);
      assert forall i :: 0 <= i < |files| ==> files[i] in s.files;
      s.(files := files, blobs := afterThumb)
    else
      s.(files := files, blobs := afterThumb)
  }

  /** Inserts a row under the next file key, together with the blobs it owns. */
  function AddFile(s: Store, r: UploadedFile): (t: Store)
    requires r.id == s.nextFileId
    ensures t.files == s.files + [r] && t.blobs == s.blobs + Owned(r)
    ensures t.logs == s.logs && t.nextLogId == s.nextLogId && t.nextFileId == s.nextFileId + 1
    ensures Valid(s) ==> Valid(t)
  {
    var t := s.(files := s.files + [r], blobs := s.blobs + Owned(r), nextFileId := s.nextFileId + 1);
    assert Valid(s) ==> IdsIncreasing(t.files) by {
      if Valid(s) {
        forall i, j | 0 <= i < j < |t.files| ensures t.files[i].id < t.files[j].id {
          assert t.files[i] == s.files[i];
          if j < |s.files| { assert t.files[j] == s.files[j]; }
        }
      }
    }
    t
  }

  /** In a table with increasing keys, the rows with a key other than the last row's
      are exactly the rows before it. */
  lemma OthersAreEarlier(files: seq<UploadedFile>)
    requires IdsIncreasing(files) && |files| > 0
    ensures forall f :: (f in files && f.id != files[|files| - 1].id) <==> f in files[..|files| - 1]
  {
    var n := |files| - 1;
    forall f ensures (f in files && f.id != files[n].id) <==> f in files[..n] {
      if f in files[..n] {
        var i :| 0 <= i < n && files[..n][i] == f;
        assert files[i] == f;
      }
      if f in files && f.id != files[n].id {
        var i :| 0 <= i < |files| && files[i] == f;
        assert files[..n][i] == f;
      }
    }
  }

  /** Replacing rows by rows with the same keys keeps the store valid. */
  lemma SameKeysValid(s: Store, files: seq<UploadedFile>)
    requires Valid(s) && |files| == |s.files|
    requires forall i :: 0 <= i < |files| ==> files[i].id == s.files[i].id
    ensures Valid(s.(files := files))
  {
  }

  /** Appends a log row under the next log key. */
  function AppendLog(s: Store, userUid: string, action: LogAction, fileId: Option<nat>,
                     fileName: string, fileSize: int, ip: Option<string>,
                     userAgent: Option<string>, now: int): (t: Store)
    ensures |t.logs| == |s.logs| + 1 && t.logs[..|s.logs|] == s.logs
    ensures t.logs[|s.logs|].action == action && t.logs[|s.logs|].fileId == fileId
    ensures t.files == s.files && t.blobs == s.blobs && t.nextFileId == s.nextFileId
    ensures Valid(s) ==> Valid(t)
  {
    var row := FileUploadLog(s.nextLogId, userUid, action, fileId, fileName, fileSize,
                             ip, userAgent, now);
    s.(logs := s.logs + [row], nextLogId := s.nextLogId + 1)
  }

  // ---------------------------------------------------------------------------
  // The primary flag
  // ---------------------------------------------------------------------------

  /** The scope of the primary flag: one user's files for one listing. */
  datatype ListingKey = ListingKey(listingType: string, listingId: string, userUid: string)

  function KeyOf(f: UploadedFile): ListingKey {
    ListingKey(f.listingType, f.listingId, f.userUid)
  }

  /** At most one file under `k` is flagged primary. */
  predicate AtMostOnePrimary(files: seq<UploadedFile>, k: ListingKey) {
    forall i, j :: 0 <= i < j < |files| && KeyOf(files[i]) == k && KeyOf(files[j]) == k
      ==> !(files[i].isPrimary && files[j].isPrimary)
  }

  /** At most one primary under every key. */
  predicate SinglePrimaryEverywhere(files: seq<UploadedFile>) {
    forall i, j :: 0 <= i < j < |files| && KeyOf(files[i]) == KeyOf(files[j])
      ==> !(files[i].isPrimary && files[j].isPrimary)
  }
}

=== FILE: text.dfy ===
/** The few Python string operations the upload views and the authentication class rely
    on: `str.isspace`, `str.strip()`, `str.split()` with no separator, `s.split(',')[0]`,
    comparison after `lower()`, and slicing to a maximum length. Strings are sequences
    of code points, as Python's are. */
module Text {
  import opened Common

  /** Python's `str.isspace()` for one code point: the ASCII whitespace and separator
      controls, NEL, NO-BREAK SPACE and the Unicode space separators. `str.split()` and
      `str.strip()` with no argument use exactly this set. */
  predicate IsSpace(c: char) {
    var n := c as int;
    (9 <= n <= 13) || (28 <= n <= 32) || n == 0x85 || n == 0xA0 || n == 0x1680
    || (0x2000 <= n <= 0x200A) || n == 0x2028 || n == 0x2029 || n == 0x202F
    || n == 0x205F || n == 0x3000
  }

  predicate AllSpace(s: string) {
    forall i :: 0 <= i < |s| ==> IsSpace(s[i])
  }

  predicate NoSpace(s: string) {
    forall i :: 0 <= i < |s| ==> !IsSpace(s[i])
  }

  // ---------------------------------------------------------------------------
  // strip()
  // ---------------------------------------------------------------------------

  lemma AllSpaceCons(x: char, t: string)
    requires IsSpace(x) && AllSpace(t)
    ensures AllSpace([x] + t)
  {
    assert forall i :: 0 < i <= |t| ==> ([x] + t)[i] == t[i - 1];
  }

  /** Drops the maximal run of leading whitespace. */
  function TrimLeft(s: string): (r: string)
    ensures |r| <= |s| && r == s[|s| - |r|..]
    ensures AllSpace(s[..|s| - |r|])
    ensures r == [] || !IsSpace(r[0])
    decreases |s|
  {
    if |s| > 0 && IsSpace(s[0]) then
      var r := TrimLeft(s[1..]);
      var k := |s| - |r|;
      assert s[..k] == [s[0]] + s[1..][..k - 1];
      AllSpaceCons(s[0], s[1..][..k - 1]);
      assert s[1..][k - 1..] == s[k..];
      r
    else
      s
  }

  /** Drops the maximal run of trailing whitespace. */
  function TrimRight(s: string): (r: string)
    ensures |r| <= |s| && r == s[..|r|]
    ensures AllSpace(s[|r|..])
    ensures r == [] || !IsSpace(r[|r| - 1])
    decreases |s|
  {
    if |s| > 0 && IsSpace(s[|s| - 1]) then
      var r := TrimRight(s[..|s| - 1]);
      assert s[|r|..] == s[..|s| - 1][|r|..] + [s[|s| - 1]];
      r
    else
      s
  }

  /** `r` is the substring of `s` starting at position `k`. */
  predicate OccursAt(r: string, s: string, k: int) {
    0 <= k <= |s| - |r| && r == s[k..k + |r|]
  }

  /** Python's `str.strip()` with no argument. */
  function Strip(s: string): (r: string)
    ensures |r| <= |s|
    ensures r == [] || (!IsSpace(r[0]) && !IsSpace(r[|r| - 1]))
    ensures exists k :: OccursAt(r, s, k)
  {
    var l := TrimLeft(s);
    var r := TrimRight(l);
    assert r != [] ==> r[0] == l[0];
    assert OccursAt(r, s, |s| - |l|) by {
      assert r == s[|s| - |l|..][..|r|];
    }
    r
  }

  lemma {:induction false} TrimLeftSkips(a: string, t: string)
    requires AllSpace(a)
    requires t == [] || !IsSpace(t[0])
    ensures TrimLeft(a + t) == t
    decreases |a|
  {
    if |a| > 0 {
      assert (a + t)[1..] == a[1..] + t;
      TrimLeftSkips(a[1..], t);
    } else {
      assert a + t == t;
    }
  }

  lemma {:induction false} TrimRightSkips(t: string, b: string)
    requires AllSpace(b)
    requires t == [] || !IsSpace(t[|t| - 1])
    ensures TrimRight(t + b) == t
    decreases |b|
  {
    if |b| > 0 {
      assert (t + b)[..|t + b| - 1] == t + b[..|b| - 1];
      TrimRightSkips(t, b[..|b| - 1]);
    } else {
      assert t + b == t;
    }
  }

  /** Stripping removes exactly the whitespace padding around a value that neither
      starts nor ends with whitespace. */
  lemma StripPadded(a: string, v: string, b: string)
    requires AllSpace(a) && AllSpace(b)
    requires v == [] || (!IsSpace(v[0]) && !IsSpace(v[|v| - 1]))
    ensures Strip(a + v + b) == v
  {
    if v == [] {
      assert a + v + b == (a + b) + [];
      assert AllSpace(a + b);
      TrimLeftSkips(a + b, []);
      assert TrimLeft(a + v + b) == [];
    } else {
      assert a + v + b == a + (v + b);
      TrimLeftSkips(a, v + b);
      TrimRightSkips(v, b);
    }
  }

  // ---------------------------------------------------------------------------
  // split(',')[0]
  // ---------------------------------------------------------------------------

  /** Python's `s.split(',')[0]`: the text before the first comma, or all of `s`. */
  function BeforeComma(s: string): (r: string)
    ensures |r| <= |s| && r == s[..|r|]
    ensures ',' !in r
    ensures |r| == |s| || s[|r|] == ','
  {
    if |s| == 0 || s[0] == ',' then [] else [s[0]] + BeforeComma(s[1..])
  }

  lemma {:induction false} BeforeCommaOf(p: string, rest: string)
    requires ',' !in p
    ensures BeforeComma(p + rest) == p + BeforeComma(rest)
    decreases |p|
  {
    if |p| > 0 {
      assert (p + rest)[0] == p[0];
      assert (p + rest)[1..] == p[1..] + rest;
      BeforeCommaOf(p[1..], rest);
      assert p == [p[0]] + p[1..];
    } else {
      assert p + rest == rest;
    }
  }

  // ---------------------------------------------------------------------------
  // split() with no separator
  // ---------------------------------------------------------------------------

  /** Length of the maximal whitespace-free prefix. */
  function WordLength(s: string): (n: nat)
    ensures n <= |s| && NoSpace(s[..n])
    ensures n == |s| || IsSpace(s[n])
  {
    if |s| == 0 || IsSpace(s[0]) then 0
    else
      var n := 1 + WordLength(s[1..]);
      assert s[..n] == [s[0]] + s[1..][..n - 1];
      n
  }

  /** Python's `str.split()` with no separator: the maximal runs of non-whitespace, in
      order; leading, trailing and repeated whitespace produce no empty words. */
  function Split(s: string): (words: seq<string>)
    ensures forall i :: 0 <= i < |words| ==> words[i] != [] && NoSpace(words[i])
    decreases |s|
  {
    if |s| == 0 then []
    else if IsSpace(s[0]) then Split(s[1..])
    else
      var n := WordLength(s);
      [s[..n]] + Split(s[n..])
  }

  /** Concatenation of a list of words. */
  function Flatten(words: seq<string>): string {
    if |words| == 0 then [] else words[0] + Flatten(words[1..])
  }

  /** The characters of `s` that are not whitespace, in order. */
  function RemoveSpaces(s: string): string {
    if |s| == 0 then []
    else if IsSpace(s[0]) then RemoveSpaces(s[1..])
    else [s[0]] + RemoveSpaces(s[1..])
  }

  lemma {:induction false} RemoveSpacesWord(s: string, n: nat)
    requires n <= |s| && NoSpace(s[..n])
    ensures RemoveSpaces(s) == s[..n] + RemoveSpaces(s[n..])
    decreases n
  {
    if n > 0 {
      assert s[0] == s[..n][0];
      assert s[1..][..n - 1] == s[1..n];
      RemoveSpacesWord(s[1..], n - 1);
      assert s[1..][n - 1..] == s[n..];
      assert s[..n] == [s[0]] + s[1..n];
    } else {
      assert s[n..] == s;
    }
  }

  /** `split()` loses only whitespace: joining the words gives back every other
      character of the input, in order. */
  lemma {:induction false} SplitKeepsText(s: string)
    ensures Flatten(Split(s)) == RemoveSpaces(s)
    decreases |s|
  {
    if |s| == 0 {
    } else if IsSpace(s[0]) {
      SplitKeepsText(s[1..]);
    } else {
      var n := WordLength(s);
      var rest := Split(s[n..]);
      assert ([s[..n]] + rest)[0] == s[..n];
      assert ([s[..n]] + rest)[1..] == rest;
      SplitKeepsText(s[n..]);
      RemoveSpacesWord(s, n);
    }
  }

  lemma {:induction false} SplitSkipsSpace(a: string, s: string)
    requires AllSpace(a)
    ensures Split(a + s) == Split(s)
    decreases |a|
  {
    if |a| > 0 {
      assert (a + s)[0] == a[0];
      assert (a + s)[1..] == a[1..] + s;
      SplitSkipsSpace(a[1..], s);
    } else {
      assert a + s == s;
    }
  }

  lemma WordLengthOf(w: string, rest: string)
    requires NoSpace(w)
    requires rest == [] || IsSpace(rest[0])
    ensures WordLength(w + rest) == |w|
  {
    var s := w + rest;
    var n := WordLength(s);
    assert forall i :: 0 <= i < |w| ==> s[i] == w[i];
    assert rest != [] ==> s[|w|] == rest[0];
  }

  lemma SplitWord(w: string, rest: string)
    requires w != [] && NoSpace(w)
    requires rest == [] || IsSpace(rest[0])
    ensures Split(w + rest) == [w] + Split(rest)
  {
    var s := w + rest;
    WordLengthOf(w, rest);
    assert s[0] == w[0];
    assert s[..|w|] == w;
    assert s[|w|..] == rest;
  }

  /** A word after leading whitespace is split off as the first word. */
  lemma SplitPaddedWord(a: string, w: string, rest: string)
    requires AllSpace(a)
    requires w != [] && NoSpace(w)
    requires rest == [] || IsSpace(rest[0])
    ensures Split(a + w + rest) == [w] + Split(rest)
  {
    assert a + w + rest == a + (w + rest);
    SplitSkipsSpace(a, w + rest);
    SplitWord(w, rest);
  }

  /** Only whitespace splits into no words. */
  lemma SplitAllSpace(a: string)
    requires AllSpace(a)
    ensures Split(a) == []
  {
    SplitSkipsSpace(a, []);
    assert a + [] == a;
  }

  /** Two words with whitespace around and between them split into exactly those two. */
  lemma SplitTwoWords(a: string, w1: string, b: string, w2: string, c: string)
    requires AllSpace(a) && AllSpace(c)
    requires AllSpace(b) && b != []
    requires w1 != [] && NoSpace(w1) && w2 != [] && NoSpace(w2)
    ensures Split(a + w1 + b + w2 + c) == [w1, w2]
  {
    var tail := b + w2 + c;
    assert a + w1 + b + w2 + c == a + w1 + tail by {
      ConcatAssoc(a + w1, b, w2);
      ConcatAssoc(a + w1, b + w2, c);
    }
    assert Split(a + w1 + tail) == [w1] + Split(tail) by {
      assert tail[0] == b[0];
      SplitPaddedWord(a, w1, tail);
    }
    assert Split(tail) == [w2] by {
      SplitPaddedWord(b, w2, c);
      SplitAllSpace(c);
    }
  }

  // ---------------------------------------------------------------------------
  // lower() and slicing
  // ---------------------------------------------------------------------------

  function LowerChar(c: char): char {
    if 'A' <= c <= 'Z' then (c as int + 32) as char else c
  }

  /** `lower()` restricted to ASCII letters. Comparing the result with an all-ASCII
      lower-case word ("bearer", "true") agrees with Python's full Unicode `lower()`:
      the only code points outside ASCII whose lower-case form contains an ASCII letter
      are U+212A (to "k") and U+0130 (to "i" and a combining dot), and neither letter
      occurs in those words. */
  function Lower(s: string): (r: string)
    ensures |r| == |s|
    ensures forall i :: 0 <= i < |r| ==> !('A' <= r[i] <= 'Z')
    ensures forall i :: 0 <= i < |s| && !('A' <= s[i] <= 'Z') ==> r[i] == s[i]
    ensures forall i :: 0 <= i < |s| && 'A' <= s[i] <= 'Z' ==> r[i] as int == s[i] as int + 32
  {
    seq(|s|, i requires 0 <= i < |s| => LowerChar(s[i]))
  }

  /** Lowering distributes over concatenation and is idempotent. */
  lemma LowerConcat(a: string, b: string)
    ensures Lower(a + b) == Lower(a) + Lower(b)
    ensures Lower(Lower(a)) == Lower(a)
  {
  }

  /** Python's `s[:n]`. */
  function Truncate(s: string, n: nat): (r: string)
    ensures |r| <= n && |r| <= |s| && r == s[..|r|]
    ensures |s| <= n ==> r == s
  {
    if |s| <= n then s else s[..n]
  }
}

=== FILE: upload.dfy ===
/** Single and batch upload (`create` and `batch_upload` in `apps/upload/views.py`).
    Each `create` is one atomic unit: it validates, renames the file, builds the row,
    stores the file and (for images) a thumbnail, and writes one `upload` log row; any
    error response or raised exception leaves the store as it was. A batch runs
    `create` once per file, in submission order, each in its own unit. */
module Upload {
  import opened Common
  import opened Text
  import opened Models
  import opened Media
  import opened Ingest

  /** Configuration and collaborators that do not change between calls: the per-type
      size caps (`MAX_UPLOAD_SIZE`) and the imaging library. */
  datatype Env = Env(limits: map<FileType, nat>, codec: ImageCodec)

  /** The text of a `uuid4()`: 32 hexadecimal digits and four hyphens. */
  type UuidText = s: string | |s| == 36 witness "00000000-0000-0000-0000-000000000000"

  /** What the clock, `uuid4` and the dated upload directories supply to one `create`
      call, and whether the metadata store raises during it. */
  datatype Fresh = Fresh(
    fileUuid: UuidText,    // uuid4() naming the stored file
    thumbUuid: UuidText,   // uuid4() naming the thumbnail
    uploadDir: string,     // 'uploads/%Y/%m/%d/' at the current date
    thumbDir: string,      // 'thumbnails/%Y/%m/%d/' at the current date
    now: int,              // creation time of the row and of its log row
    fault: Option<string>  // Some(message): the metadata store raises this message
  )

  /** The result of `create`, the store after it, and the name the uploaded file object
      carries afterwards (it is renamed once validation has passed). */
  datatype CreateOutcome = CreateOutcome(
    result: Result<UploadedFile, CreateError>,
    store: Store,
    renamedTo: Option<string>
  )

  /** `f"{uuid.uuid4()}{ext}"`: the fresh uuid, then the client name's extension in
      lower case, so no two uploads share a name whatever the clients called them. */
  function UniqueName(f: FilePayload, supply: Fresh): (n: string)
    ensures |n| >= 36 && n[..36] == supply.fileUuid
    ensures n[36..] == [] <==> SplitExt(f.name) == []
    ensures n[36..] == [] || n[36] == '.'
    ensures forall i :: 36 <= i < |n| ==> n[i] != '/' && !('A' <= n[i] <= 'Z')
  {
    var ext := Extension(f.name);
    var n := supply.fileUuid + ext;
    assert |n| == 36 + |ext| && n[..36] == supply.fileUuid && n[36..] == ext;
    n
  }

  /** A client name with an ordinary stem keeps its lower-cased extension after the
      fresh uuid. */
  lemma UniqueNameOf(stem: string, ext: string, f: FilePayload, supply: Fresh)
    requires exists k :: 0 <= k < |stem| && stem[k] != '.' && '/' !in stem[k..]
    requires '.' !in ext && '/' !in ext
    requires f.name == stem + "." + ext
    ensures UniqueName(f, supply) == supply.fileUuid + "." + Lower(ext)
  {
    ExtensionOf(stem, ext);
  }

  /** `f"thumb_{uuid.uuid4()}.jpg"`: a JPEG name that carries the fresh uuid. */
  function ThumbName(supply: Fresh): (n: string)
    ensures |n| == 46
    ensures n[..6] == "thumb_" && n[6..42] == supply.thumbUuid && n[42..] == ".jpg"
  {
    "thumb_" + supply.thumbUuid + ".jpg"
  }

  /** The row as `UploadedFile.objects.create` saves it, then, when a thumbnail could be
      made for an image, as the thumbnail's own save leaves it. */
  function BuildRecord(id: nat, caller: string, a: Admitted, isPrimary: bool, env: Env,
                       supply: Fresh): (r: UploadedFile)
    ensures r.id == id && r.userUid == caller && r.isPrimary == isPrimary
    ensures r.listingType == a.listingType && r.listingId == a.listingId
    ensures r.fileType == a.fileType && r.mimeType == a.mimeType && r.uploadedAt == supply.now
    ensures r.file == Some(Blob(supply.uploadDir + UniqueName(a.file, supply), a.file.Size()))
    ensures r.fileSize == a.file.Size()
    // dimensions: what the image reports, and none for other types
    ensures a.fileType == Image ==>
              && r.width == ImageDimensions(a.file.stream, env.codec).width
              && r.height == ImageDimensions(a.file.stream, env.codec).height
    ensures a.fileType != Image ==> r.width.None? && r.height.None?
    // thumbnail: present exactly when an image renders, holding the rendered bytes
    ensures r.thumbnail.Some? <==>
              a.fileType == Image && GenerateThumbnail(a.file.stream, env.codec).bytes.Some?
    ensures r.thumbnail.Some? ==>
              r.thumbnail.value
              == Blob(supply.thumbDir + ThumbName(supply),
                      |GenerateThumbnail(a.file.stream, env.codec).bytes.value|)
  {
    var probe :=
      if a.fileType == Image then ImageDimensions(a.file.stream, env.codec)
      else Probe(None, None, a.file.stream);
    var stored := Blob(supply.uploadDir + UniqueName(a.file, supply), a.file.Size());
    var row := Save(UploadedFile(id, caller, a.listingType, a.listingId, a.fileType, Some(stored),
                                 None, isPrimary, a.file.Size(), a.mimeType,
                                 probe.width, probe.height, supply.now));
    // the thumbnail is made from the stream the probe rewound, which holds the same data
    var thumb := if a.fileType == Image then GenerateThumbnail(probe.stream, env.codec).bytes else None;
    assert a.fileType == Image ==> thumb == GenerateThumbnail(a.file.stream, env.codec).bytes;
    if thumb.Some? then Save(row.(thumbnail := Some(Blob(supply.thumbDir + ThumbName(supply), |thumb.value|))))
    else row
  }

  /** `create`. */
  function Create(s: Store, caller: string, req: CreateRequest, meta: RequestMeta, env: Env,
                  supply: Fresh): (out: CreateOutcome)
    // validation, in order, and nothing written on any failure
    ensures out.result == Failure(MissingFields) <==> !RequiredPresent(req)
    ensures out.result.Failure? && out.result.error.FileTooLarge? <==>
              RequiredPresent(req)
              && req.file.value.Size()
                 > MaxUploadSize(env.limits, DetectFileType(EffectiveMime(req.file.value.contentType)))
    ensures out.result.Failure? && out.result.error.Raised? <==>
              && RequiredPresent(req)
              && req.file.value.Size()
                 <= MaxUploadSize(env.limits, DetectFileType(EffectiveMime(req.file.value.contentType)))
              && supply.fault.Some?
    ensures out.result.Success? <==>
              && RequiredPresent(req)
              && req.file.value.Size()
                 <= MaxUploadSize(env.limits, DetectFileType(EffectiveMime(req.file.value.contentType)))
              && supply.fault.None?
    ensures out.result.Failure? ==> out.store == s
    // on success: one new row, one new log row, nothing else changes
    ensures out.result.Success? ==>
              var r := out.result.value;
              && out.store.files == s.files + [r]
              && out.store.blobs == s.blobs + Owned(r)
              && |out.store.logs| == |s.logs| + 1
              && out.store.logs[..|s.logs|] == s.logs
    ensures Valid(s) ==> Valid(out.store)
  {
    match Admit(req, env.limits)
    case Failure(e) => CreateOutcome(Failure(e), s, None)
    case Success(a) =>
      var name := UniqueName(a.file, supply);
      if supply.fault.Some? then
        CreateOutcome(Failure(Raised(supply.fault.value)), s, Some(name))
      else
        var r := BuildRecord(s.nextFileId, caller, a, ParseIsPrimary(req.isPrimary), env, supply);
        var s1 := AddFile(s, r);
        var s2 := AppendLog(s1, caller, Upload, Some(r.id), name, a.file.Size(), ClientIp(meta),
                            Some(UserAgent(meta)), supply.now);
        CreateOutcome(Success(r), s2, Some(name))
  }

  /** The log row `create` writes: an upload by the caller of the new row, under the
      fresh name the file was renamed to, with the row's size, the client address, the
      cut user agent and the clock of the call. */
  lemma CreateLogsUpload(s: Store, caller: string, req: CreateRequest, meta: RequestMeta,
                         env: Env, supply: Fresh)
    requires Create(s, caller, req, meta, env, supply).result.Success?
    ensures var out := Create(s, caller, req, meta, env, supply);
            var r := out.result.value;
            var log := out.store.logs[|s.logs|];
            && log.action == Upload && log.userUid == caller && log.fileId == Some(r.id)
            && out.renamedTo == Some(log.fileName)
            && log.fileName == UniqueName(req.file.value, supply)
            && log.fileSize == r.fileSize
            && log.timestamp == supply.now
            && log.ipAddress == ClientIp(meta)
            && log.userAgent == Some(UserAgent(meta))
  {
  }

  /** The row `create` stores carries what was asked for: the next key, the file under
      its fresh name in the dated directory, the clock of the call, the caller, the listing, the
      parsed flag, the effective MIME type and its category, the size within its cap,
      the dimensions the image reports (none for other types), and a thumbnail exactly
      when the image renders. */
  lemma CreateRecordsRequest(s: Store, caller: string, req: CreateRequest, meta: RequestMeta,
                             env: Env, supply: Fresh)
    requires Create(s, caller, req, meta, env, supply).result.Success?
    ensures var r := Create(s, caller, req, meta, env, supply).result.value;
            && RequiredPresent(req)
            && r.userUid == caller
            && Some(r.listingType) == req.listingType && Some(r.listingId) == req.listingId
            && r.isPrimary == ParseIsPrimary(req.isPrimary)
            && r.mimeType == EffectiveMime(req.file.value.contentType)
            && r.fileType == DetectFileType(r.mimeType)
            && r.fileSize == req.file.value.Size()
            && r.fileSize <= MaxUploadSize(env.limits, r.fileType)
            && (r.fileType == Image ==>
                  && r.width == ImageDimensions(req.file.value.stream, env.codec).width
                  && r.height == ImageDimensions(req.file.value.stream, env.codec).height)
            && (r.fileType != Image ==> r.width.None? && r.height.None?)
            && (r.thumbnail.Some? <==>
                  r.fileType == Image && GenerateThumbnail(req.file.value.stream, env.codec).bytes.Some?)
            // the stored row itself: the next key, the renamed file, the call's clock
            && r.id == s.nextFileId
            && r.file == Some(Blob(supply.uploadDir + UniqueName(req.file.value, supply),
                                   req.file.value.Size()))
            && r.uploadedAt == supply.now
            && (r.thumbnail.Some? ==>
                  r.thumbnail.value
                  == Blob(supply.thumbDir + ThumbName(supply),
                          |GenerateThumbnail(req.file.value.stream, env.codec).bytes.value|))
  {
  }

  /** `create` writes the requested flag without clearing the others: asking for a
      primary under a listing key that already has one leaves two. */
  lemma CreateMayDuplicatePrimary(s: Store, caller: string, req: CreateRequest, meta: RequestMeta,
                                  env: Env, supply: Fresh, i: nat)
    requires i < |s.files| && s.files[i].isPrimary && s.files[i].userUid == caller
    requires req.listingType == Some(s.files[i].listingType)
    requires req.listingId == Some(s.files[i].listingId)
    requires ParseIsPrimary(req.isPrimary)
    requires Create(s, caller, req, meta, env, supply).result.Success?
    ensures !AtMostOnePrimary(Create(s, caller, req, meta, env, supply).store.files, KeyOf(s.files[i]))
  {
    var out := Create(s, caller, req, meta, env, supply);
    var files := out.store.files;
    assert files[i] == s.files[i];
    assert files[|s.files|] == out.result.value;
  }

  // ---------------------------------------------------------------------------
  // batch_upload
  // ---------------------------------------------------------------------------

  /** One entry of the `errors` list: the file object's name and the error. */
  datatype BatchError = BatchError(file: string, error: CreateError)

  /** The batch response. */
  datatype BatchReport = BatchReport(
    success: nat,
    failed: nat,
    results: seq<UploadedFile>,
    errors: seq<BatchError>
  )

  /** The one error response of the batch itself. */
  datatype BatchRejection = NoFilesProvided

  /** The request `create` sees for the file at submission `index`: only the first file
      asks to be primary. */
  function ItemRequest(f: FilePayload, listingType: Option<string>, listingId: Option<string>,
                       index: nat): (req: CreateRequest)
    ensures req.file == Some(f) && req.listingType == listingType && req.listingId == listingId
    ensures ParseIsPrimary(req.isPrimary) <==> index == 0
  {
    assert ParseIsPrimary(Some("false")) == false by {
      assert Lower("false")[0] == 'f';
    }
    assert ParseIsPrimary(Some("true")) by {
      assert Lower("true") == "true";
    }
    CreateRequest(Some(f), listingType, listingId, Some(if index == 0 then "true" else "false"))
  }

  /** One iteration of the batch loop: `create` on the file at submission `index`,
      seen only through what the loop needs of it. */
  function CreateItem(s: Store, caller: string, f: FilePayload, index: nat,
                      listingType: Option<string>, listingId: Option<string>, meta: RequestMeta,
                      env: Env, supply: Fresh): (out: CreateOutcome)
    ensures out == Create(s, caller, ItemRequest(f, listingType, listingId, index), meta, env, supply)
    ensures out.result.Failure? ==> out.store == s
    ensures out.result.Success? ==>
              && out.store.files == s.files + [out.result.value]
              && |out.store.logs| == |s.logs| + 1 && out.store.logs[..|s.logs|] == s.logs
              && (out.result.value.isPrimary <==> index == 0)
    ensures Valid(s) ==> Valid(out.store)
  {
    Create(s, caller, ItemRequest(f, listingType, listingId, index), meta, env, supply)
  }

  /** Whether `create` accepts the file at submission position `index` of a batch. This
      reads neither the store nor the other files: validation looks only at the item's
      own request, and the store fails or not as the supply for that position says. */
  predicate Accepts(f: FilePayload, index: nat, listingType: Option<string>,
                    listingId: Option<string>, env: Env, supply: nat -> Fresh)
  {
    Admit(ItemRequest(f, listingType, listingId, index), env.limits).Success?
    && supply(index).fault.None?
  }

  /** The row `create` stores for an accepted file at position `index` under key `id`. */
  function ItemRow(caller: string, f: FilePayload, index: nat, listingType: Option<string>,
                   listingId: Option<string>, env: Env, supply: nat -> Fresh, id: nat)
    : (r: UploadedFile)
    requires Accepts(f, index, listingType, listingId, env, supply)
    ensures r.id == id && r.userUid == caller && (r.isPrimary <==> index == 0)
  {
    BuildRecord(id, caller, Admit(ItemRequest(f, listingType, listingId, index), env.limits).value,
                index == 0, env, supply(index))
  }

  /** The `errors` entry of a refused file: its client name and the validation error, or,
      when the store raised after validation, the fresh name it had been given and the
      exception's message. */
  function ItemError(f: FilePayload, index: nat, listingType: Option<string>,
                     listingId: Option<string>, env: Env, supply: nat -> Fresh)
    : (e: BatchError)
    requires !Accepts(f, index, listingType, listingId, env, supply)
    ensures e.error.Raised? <==>
              Admit(ItemRequest(f, listingType, listingId, index), env.limits).Success?
    ensures !e.error.Raised? ==> e.file == f.name
    ensures e.error.Raised? ==>
              e.file == UniqueName(f, supply(index)) && e.error.message == supply(index).fault.value
  {
    match Admit(ItemRequest(f, listingType, listingId, index), env.limits)
    case Failure(err) => BatchError(f.name, err)
    case Success(_) => BatchError(UniqueName(f, supply(index)), Raised(supply(index).fault.value))
  }

  /** The verdict on every file of a batch, in submission order. */
  function Verdicts(files: seq<FilePayload>, listingType: Option<string>,
                    listingId: Option<string>, env: Env, supply: nat -> Fresh): seq<bool>
  {
    seq(|files|, k requires 0 <= k < |files| =>
      Accepts(files[k], k, listingType, listingId, env, supply))
  }

  /** The positions `index`, `index + 1`, ... at which `flags` holds `want`, in
      ascending order. */
  function Positions(flags: seq<bool>, index: nat, want: bool): (ps: seq<nat>)
    ensures forall i :: 0 <= i < |ps| ==> index <= ps[i] < index + |flags|
    ensures forall i :: 0 <= i < |ps| ==> flags[ps[i] - index] == want
    ensures forall p :: p in ps <==> index <= p < index + |flags| && flags[p - index] == want
    ensures forall i, j :: 0 <= i < j < |ps| ==> ps[i] < ps[j]
    decreases |flags|
  {
    if |flags| == 0 then []
    else
      var rest := Positions(flags[1..], index + 1, want);
      assert forall j :: 0 <= j < |flags| - 1 ==> flags[1..][j] == flags[j + 1];
      if flags[0] == want then [index] + rest else rest
  }

  /** Flags that all hold `want` yield every position, in order, and none for the other
      value. */
  lemma {:induction false} PositionsAll(flags: seq<bool>, index: nat, want: bool)
    requires forall k :: 0 <= k < |flags| ==> flags[k] == want
    ensures var ps := Positions(flags, index, want);
            |ps| == |flags| && forall j :: 0 <= j < |ps| ==> ps[j] == index + j
    ensures Positions(flags, index, !want) == []
    decreases |flags|
  {
    if |flags| > 0 {
      assert forall k :: 0 <= k < |flags| - 1 ==> flags[1..][k] == flags[k + 1];
      PositionsAll(flags[1..], index + 1, want);
    }
  }

  /** Flags that fail at position `q` alone yield `q` as the only failing position, and
      every other position, in order, as the holding ones. */
  lemma {:induction false} PositionsAllBut(flags: seq<bool>, index: nat, q: nat)
    requires index <= q < index + |flags|
    requires forall k :: 0 <= k < |flags| ==> (flags[k] <==> index + k != q)
    ensures Positions(flags, index, false) == [q]
    ensures var ps := Positions(flags, index, true);
            && |ps| == |flags| - 1
            && forall j :: 0 <= j < |ps| ==> ps[j] == if index + j < q then index + j else index + j + 1
    decreases |flags|
  {
    var tail := flags[1..];
    assert forall k :: 0 <= k < |tail| ==> tail[k] == flags[k + 1];
    if index == q {
      PositionsAll(tail, index + 1, true);
    } else {
      PositionsAllBut(tail, index + 1, q);
    }
  }

  /** One batch item seen through the verdict: `create` succeeds exactly on an accepted
      file, storing its row under the next key, and otherwise reports the file's error. */
  lemma CreateItemVerdict(s: Store, caller: string, f: FilePayload, index: nat,
                          listingType: Option<string>, listingId: Option<string>,
                          meta: RequestMeta, env: Env, supply: nat -> Fresh)
    ensures var out := CreateItem(s, caller, f, index, listingType, listingId, meta, env, supply(index));
            && (out.result.Success? <==> Accepts(f, index, listingType, listingId, env, supply))
            && (out.result.Success? ==>
                  && out.result.value == ItemRow(caller, f, index, listingType, listingId, env, supply,
                                                 s.nextFileId)
                  && out.store.nextFileId == s.nextFileId + 1)
            && (out.result.Failure? ==>
                  BatchError(out.renamedTo.GetOr(f.name), out.result.error)
                  == ItemError(f, index, listingType, listingId, env, supply))
  {
  }

  /** The loop of `batch_upload` over `files`, whose first element sits at submission
      position `index`: successes, errors, and the store afterwards. */
  function BatchLoop(s: Store, caller: string, files: seq<FilePayload>, index: nat,
                     listingType: Option<string>, listingId: Option<string>, meta: RequestMeta,
                     env: Env, supply: nat -> Fresh)
    : (r: (seq<UploadedFile>, seq<BatchError>, Store))
    ensures |r.0| + |r.1| == |files|
    ensures r.2.files == s.files + r.0
    ensures |r.2.logs| == |s.logs| + |r.0| && r.2.logs[..|s.logs|] == s.logs
    ensures forall j :: 0 <= j < |r.0| && r.0[j].isPrimary ==> index == 0 && j == 0
    ensures Valid(s) ==> Valid(r.2)
    decreases |files|
  {
    if |files| == 0 then ([], [], s)
    else
      var out := CreateItem(s, caller, files[0], index, listingType, listingId, meta, env,
                            supply(index));
      var rest := BatchLoop(out.store, caller, files[1..], index + 1, listingType, listingId,
                            meta, env, supply);
      match out.result
      case Success(rec) =>
        ConcatAssoc(s.files, [rec], rest.0);
        PrefixOfPrefix(s.logs, out.store.logs, rest.2.logs);
        ([rec] + rest.0, rest.1, rest.2)
      case Failure(e) =>
        (rest.0, [BatchError(out.renamedTo.GetOr(files[0].name), e)] + rest.1, rest.2)
  }

  /** `xs` lists, in order, `at(p, key + j)` for the `j`-th position `p` (counting from
      `index`) at which `flags` holds `want`. */
  predicate GathersKeyed<T(==)>(xs: seq<T>, flags: seq<bool>, index: nat, want: bool,
                                at: (nat, nat) -> T, key: nat) {
    var ps := Positions(flags, index, want);
    |xs| == |ps| && forall j :: 0 <= j < |ps| ==> xs[j] == at(ps[j], key + j)
  }

  /** `xs` lists, in order, `at(p)` for every position `p` (counting from `index`) at
      which `flags` holds `want`. */
  predicate Gathers<T(==)>(xs: seq<T>, flags: seq<bool>, index: nat, want: bool, at: nat -> T) {
    var ps := Positions(flags, index, want);
    |xs| == |ps| && forall j :: 0 <= j < |ps| ==> xs[j] == at(ps[j])
  }

  /** A first position that holds `want` contributes the first element, under the
      first key. */
  lemma GathersKeyedTaken<T>(xs: seq<T>, flags: seq<bool>, index: nat, want: bool,
                             at: (nat, nat) -> T, key: nat)
    requires |flags| > 0 && flags[0] == want
    requires GathersKeyed(xs, flags[1..], index + 1, want, at, key + 1)
    ensures GathersKeyed([at(index, key)] + xs, flags, index, want, at, key)
  {
    var ps := Positions(flags, index, want);
    var ps1 := Positions(flags[1..], index + 1, want);
    assert ps == [index] + ps1;
    var all := [at(index, key)] + xs;
    forall j | 0 < j < |ps| ensures all[j] == at(ps[j], key + j) {
      assert all[j] == xs[j - 1] && ps[j] == ps1[j - 1];
    }
  }

  /** A first position that does not hold `want` contributes nothing and uses no key. */
  lemma GathersKeyedSkipped<T>(xs: seq<T>, flags: seq<bool>, index: nat, want: bool,
                               at: (nat, nat) -> T, key: nat)
    requires |flags| > 0 && flags[0] != want
    requires GathersKeyed(xs, flags[1..], index + 1, want, at, key)
    ensures GathersKeyed(xs, flags, index, want, at, key)
  {
    assert Positions(flags, index, want) == Positions(flags[1..], index + 1, want);
  }

  /** A first position that holds `want` contributes the first element. */
  lemma GathersTaken<T>(xs: seq<T>, flags: seq<bool>, index: nat, want: bool, at: nat -> T)
    requires |flags| > 0 && flags[0] == want
    requires Gathers(xs, flags[1..], index + 1, want, at)
    ensures Gathers([at(index)] + xs, flags, index, want, at)
  {
    var ps := Positions(flags, index, want);
    var ps1 := Positions(flags[1..], index + 1, want);
    assert ps == [index] + ps1;
    var all := [at(index)] + xs;
    forall j | 0 < j < |ps| ensures all[j] == at(ps[j]) {
      assert all[j] == xs[j - 1] && ps[j] == ps1[j - 1];
    }
  }

  /** A first position that does not hold `want` contributes nothing. */
  lemma GathersSkipped<T>(xs: seq<T>, flags: seq<bool>, index: nat, want: bool, at: nat -> T)
    requires |flags| > 0 && flags[0] != want
    requires Gathers(xs, flags[1..], index + 1, want, at)
    ensures Gathers(xs, flags, index, want, at)
  {
    assert Positions(flags, index, want) == Positions(flags[1..], index + 1, want);
  }

  /** The row stored for the file at submission position `p` of `files` under key `id`,
      when that file is accepted; an unused default otherwise. */
  function RowAt(caller: string, files: seq<FilePayload>, listingType: Option<string>,
                 listingId: Option<string>, env: Env, supply: nat -> Fresh, p: nat, id: nat)
    : UploadedFile
  {
    if p < |files| && Accepts(files[p], p, listingType, listingId, env, supply)
    then ItemRow(caller, files[p], p, listingType, listingId, env, supply, id)
    else NewRecord(id, caller, "", "", None, 0)
  }

  /** The error reported for the file at submission position `p` of `files`, when that
      file is refused; an unused default otherwise. */
  function ErrorAt(files: seq<FilePayload>, listingType: Option<string>,
                   listingId: Option<string>, env: Env, supply: nat -> Fresh, p: nat): BatchError
  {
    if p < |files| && !Accepts(files[p], p, listingType, listingId, env, supply)
    then ItemError(files[p], p, listingType, listingId, env, supply)
    else BatchError([], MissingFields)
  }

  /** An accepted file at position `i` puts its row, under the current key, in front of
      the rows gathered after it under the following keys, and adds no error. */
  lemma StepTaken<R, E>(flags: seq<bool>, i: nat, rowAt: (nat, nat) -> R, errAt: nat -> E,
                        key: nat, next: nat, row: R, rows: seq<R>, errors: seq<E>,
                        allRows: seq<R>, allErrors: seq<E>)
    requires i < |flags| && flags[i]
    requires next == key + 1 && row == rowAt(i, key)
    requires allRows == [row] + rows && allErrors == errors
    requires GathersKeyed(rows, flags[i + 1..], i + 1, true, rowAt, next)
    requires Gathers(errors, flags[i + 1..], i + 1, false, errAt)
    ensures GathersKeyed(allRows, flags[i..], i, true, rowAt, key)
    ensures Gathers(allErrors, flags[i..], i, false, errAt)
  {
    assert flags[i..][1..] == flags[i + 1..];
    GathersKeyedTaken(rows, flags[i..], i, true, rowAt, key);
    GathersSkipped(errors, flags[i..], i, false, errAt);
  }

  /** A refused file at position `i` puts its error in front of the errors gathered
      after it, and adds no row nor uses a key. */
  lemma StepRefused<R, E>(flags: seq<bool>, i: nat, rowAt: (nat, nat) -> R, errAt: nat -> E,
                          key: nat, next: nat, err: E, rows: seq<R>, errors: seq<E>,
                          allRows: seq<R>, allErrors: seq<E>)
    requires i < |flags| && !flags[i]
    requires next == key && err == errAt(i)
    requires allRows == rows && allErrors == [err] + errors
    requires GathersKeyed(rows, flags[i + 1..], i + 1, true, rowAt, next)
    requires Gathers(errors, flags[i + 1..], i + 1, false, errAt)
    ensures GathersKeyed(allRows, flags[i..], i, true, rowAt, key)
    ensures Gathers(allErrors, flags[i..], i, false, errAt)
  {
    assert flags[i..][1..] == flags[i + 1..];
    GathersKeyedSkipped(rows, flags[i..], i, true, rowAt, key);
    GathersTaken(errors, flags[i..], i, false, errAt);
  }

  /** The batch item at position `i` seen through the batch-wide lookups: `create`
      succeeds exactly on an accepted file, storing `RowAt` under the next key, and
      otherwise reports `ErrorAt`. */
  lemma BatchItem(s: Store, caller: string, files: seq<FilePayload>, i: nat,
                  listingType: Option<string>, listingId: Option<string>, meta: RequestMeta,
                  env: Env, supply: nat -> Fresh)
    requires i < |files|
    ensures var out := CreateItem(s, caller, files[i], i, listingType, listingId, meta, env, supply(i));
            && (out.result.Success? <==> Verdicts(files, listingType, listingId, env, supply)[i])
            && (out.result.Success? ==>
                  && out.result.value == RowAt(caller, files, listingType, listingId, env, supply, i,
                                               s.nextFileId)
                  && out.store.nextFileId == s.nextFileId + 1)
            && (out.result.Failure? ==>
                  BatchError(out.renamedTo.GetOr(files[i].name), out.result.error)
                  == ErrorAt(files, listingType, listingId, env, supply, i))
  {
    CreateItemVerdict(s, caller, files[i], i, listingType, listingId, meta, env, supply);
  }

  /** One turn of the batch loop from submission position `i`: the item's row or error
      goes in front of what the rest of the loop gathers from the store it leaves. */
  lemma BatchLoopStep(s: Store, caller: string, files: seq<FilePayload>, i: nat,
                      listingType: Option<string>, listingId: Option<string>, meta: RequestMeta,
                      env: Env, supply: nat -> Fresh)
    requires i < |files|
    ensures var out := CreateItem(s, caller, files[i], i, listingType, listingId, meta, env, supply(i));
            var r := BatchLoop(s, caller, files[i..], i, listingType, listingId, meta, env, supply);
            var rest := BatchLoop(out.store, caller, files[i + 1..], i + 1, listingType, listingId,
                                  meta, env, supply);
            && (out.result.Success? ==> r.0 == [out.result.value] + rest.0 && r.1 == rest.1)
            && (out.result.Failure? ==>
                  && r.0 == rest.0
                  && r.1 == [BatchError(out.renamedTo.GetOr(files[i].name), out.result.error)]
                            + rest.1)
  {
    assert files[i..][0] == files[i] && files[i..][1..] == files[i + 1..];
  }

  /** The blob names the given rows own, together. */
  function OwnedAll(rows: seq<UploadedFile>): (names: set<string>)
    ensures forall k :: 0 <= k < |rows| ==> Owned(rows[k]) <= names
    ensures forall b :: b in names ==> exists k :: 0 <= k < |rows| && b in Owned(rows[k])
  {
    if |rows| == 0 then {}
    else
      var rest := OwnedAll(rows[1..]);
      assert forall k :: 1 <= k < |rows| ==> rows[1..][k - 1] == rows[k];
      Owned(rows[0]) + rest
  }

  /** `log` records the upload of `rec` by `caller`. */
  predicate UploadLogged(log: FileUploadLog, caller: string, rec: UploadedFile) {
    log.action == Upload && log.userUid == caller && log.fileId == Some(rec.id)
    && log.fileSize == rec.fileSize
  }

  /** From position `base` on, `logs` records the uploads of `rows`, one row each, in order. */
  predicate LogsUploads(logs: seq<FileUploadLog>, base: nat, rows: seq<UploadedFile>, caller: string) {
    base + |rows| <= |logs|
    && forall j :: 0 <= j < |rows| ==> UploadLogged(logs[base + j], caller, rows[j])
  }

  lemma LogsUploadsCons(logs: seq<FileUploadLog>, base: nat, rec: UploadedFile,
                        rows: seq<UploadedFile>, caller: string)
    requires base < |logs| && UploadLogged(logs[base], caller, rec)
    requires LogsUploads(logs, base + 1, rows, caller)
    ensures LogsUploads(logs, base, [rec] + rows, caller)
  {
    forall j | 0 < j <= |rows|
      ensures UploadLogged(logs[base + j], caller, ([rec] + rows)[j])
    {
      assert logs[base + j] == logs[base + 1 + (j - 1)];
    }
  }

  /** A successful batch item adds its row's blobs and one log row recording its upload. */
  lemma CreateItemLogged(s: Store, caller: string, f: FilePayload, index: nat,
                         listingType: Option<string>, listingId: Option<string>,
                         meta: RequestMeta, env: Env, supply: Fresh)
    requires CreateItem(s, caller, f, index, listingType, listingId, meta, env, supply).result.Success?
    ensures var out := CreateItem(s, caller, f, index, listingType, listingId, meta, env, supply);
            && out.store.blobs == s.blobs + Owned(out.result.value)
            && |out.store.logs| == |s.logs| + 1 && out.store.logs[..|s.logs|] == s.logs
            && UploadLogged(out.store.logs[|s.logs|], caller, out.result.value)
  {
    CreateLogsUpload(s, caller, ItemRequest(f, listingType, listingId, index), meta, env, supply);
  }

  /** Each row the batch loop stores brings its blobs and one `upload` log row: the
      blob store grows by exactly the blobs of the results, and the new log rows record
      the uploads of the results by the caller, in order. */
  lemma {:induction false} BatchLoopLogsUploads(s: Store, caller: string, files: seq<FilePayload>,
                                                index: nat, listingType: Option<string>,
                                                listingId: Option<string>, meta: RequestMeta,
                                                env: Env, supply: nat -> Fresh)
    ensures var r := BatchLoop(s, caller, files, index, listingType, listingId, meta, env, supply);
            && r.2.blobs == s.blobs + OwnedAll(r.0)
            && LogsUploads(r.2.logs, |s.logs|, r.0, caller)
    decreases |files|
  {
    if |files| > 0 {
      var out := CreateItem(s, caller, files[0], index, listingType, listingId, meta, env,
                            supply(index));
      BatchLoopLogsUploads(out.store, caller, files[1..], index + 1, listingType, listingId,
                           meta, env, supply);
      var rest := BatchLoop(out.store, caller, files[1..], index + 1, listingType, listingId,
                            meta, env, supply);
      if out.result.Success? {
        var rec := out.result.value;
        CreateItemLogged(s, caller, files[0], index, listingType, listingId, meta, env,
                         supply(index));
        assert ([rec] + rest.0)[1..] == rest.0;
        assert rest.2.logs[..|out.store.logs|] == out.store.logs;
        assert rest.2.logs[|s.logs|] == out.store.logs[|s.logs|];
        LogsUploadsCons(rest.2.logs, |s.logs|, rec, rest.0, caller);
      }
    }
  }

  /** From submission position `i` on, the batch loop gathers the accepted files' rows,
      under consecutive keys from the store's next key, and the refused files' errors,
      each in submission order. */
  lemma {:induction false} BatchLoopGathers(s: Store, caller: string, files: seq<FilePayload>,
                                            i: nat, listingType: Option<string>,
                                            listingId: Option<string>, meta: RequestMeta,
                                            env: Env, supply: nat -> Fresh)
    requires i <= |files|
    ensures var r := BatchLoop(s, caller, files[i..], i, listingType, listingId, meta, env, supply);
            var vs := Verdicts(files, listingType, listingId, env, supply)[i..];
            && GathersKeyed(r.0, vs, i, true,
                            (p: nat, id: nat) =>
                              RowAt(caller, files, listingType, listingId, env, supply, p, id),
                            s.nextFileId)
            && Gathers(r.1, vs, i, false,
                       (p: nat) => ErrorAt(files, listingType, listingId, env, supply, p))
    decreases |files| - i
  {
    var rowAt := (p: nat, id: nat) => RowAt(caller, files, listingType, listingId, env, supply, p, id);
    var errAt := (p: nat) => ErrorAt(files, listingType, listingId, env, supply, p);
    var vs := Verdicts(files, listingType, listingId, env, supply);
    if i < |files| {
      var out := CreateItem(s, caller, files[i], i, listingType, listingId, meta, env, supply(i));
      BatchItem(s, caller, files, i, listingType, listingId, meta, env, supply);
      BatchLoopStep(s, caller, files, i, listingType, listingId, meta, env, supply);
      BatchLoopGathers(out.store, caller, files, i + 1, listingType, listingId, meta, env, supply);
      var rest := BatchLoop(out.store, caller, files[i + 1..], i + 1, listingType, listingId, meta,
                            env, supply);
      var r := BatchLoop(s, caller, files[i..], i, listingType, listingId, meta, env, supply);
      if out.result.Success? {
        StepTaken(vs, i, rowAt, errAt, s.nextFileId, out.store.nextFileId, out.result.value,
                  rest.0, rest.1, r.0, r.1);
      } else {
        StepRefused(vs, i, rowAt, errAt, s.nextFileId, out.store.nextFileId,
                    BatchError(out.renamedTo.GetOr(files[i].name), out.result.error),
                    rest.0, rest.1, r.0, r.1);
      }
    }
  }

  /** The values `at(p, key + j)` for the `j`-th position `p` of `ps`: what sits at
      those positions, under consecutive keys from `key`. */
  function Keyed<T>(ps: seq<nat>, at: (nat, nat) -> T, key: nat): (xs: seq<T>)
    ensures |xs| == |ps|
  {
    seq(|ps|, j requires 0 <= j < |ps| => at(ps[j], key + j))
  }

  /** The values `at(p)` for the positions `p` of `ps`, in order. */
  function Picked<T>(ps: seq<nat>, at: nat -> T): (xs: seq<T>)
    ensures |xs| == |ps|
  {
    seq(|ps|, j requires 0 <= j < |ps| => at(ps[j]))
  }

  /** What `GathersKeyed` describes is the keyed values at the positions. */
  lemma GathersKeyedIsKeyed<T>(xs: seq<T>, flags: seq<bool>, index: nat, want: bool,
                               at: (nat, nat) -> T, key: nat)
    requires GathersKeyed(xs, flags, index, want, at, key)
    ensures xs == Keyed(Positions(flags, index, want), at, key)
  {
  }

  /** What `Gathers` describes is the values at the positions. */
  lemma GathersIsPicked<T>(xs: seq<T>, flags: seq<bool>, index: nat, want: bool, at: nat -> T)
    requires Gathers(xs, flags, index, want, at)
    ensures xs == Picked(Positions(flags, index, want), at)
  {
  }

  /** The rows `create` stores for the accepted files of a batch: one per accepted
      file, in submission order, under consecutive keys from `key`. */
  function AcceptedRows(caller: string, files: seq<FilePayload>, listingType: Option<string>,
                        listingId: Option<string>, env: Env, supply: nat -> Fresh, key: nat)
    : seq<UploadedFile>
  {
    Keyed(Positions(Verdicts(files, listingType, listingId, env, supply), 0, true),
          (p: nat, id: nat) => RowAt(caller, files, listingType, listingId, env, supply, p, id),
          key)
  }

  /** The errors of the refused files of a batch, in submission order. */
  function RefusedErrors(files: seq<FilePayload>, listingType: Option<string>,
                         listingId: Option<string>, env: Env, supply: nat -> Fresh)
    : seq<BatchError>
  {
    Picked(Positions(Verdicts(files, listingType, listingId, env, supply), 0, false),
           (p: nat) => ErrorAt(files, listingType, listingId, env, supply, p))
  }

  /** The `j`-th accepted row is the row `create` stores for the `j`-th accepted file,
      under the `j`-th key. */
  lemma AcceptedRowsAt(caller: string, files: seq<FilePayload>, listingType: Option<string>,
                       listingId: Option<string>, env: Env, supply: nat -> Fresh, key: nat, j: nat)
    requires j < |Positions(Verdicts(files, listingType, listingId, env, supply), 0, true)|
    ensures var p := Positions(Verdicts(files, listingType, listingId, env, supply), 0, true)[j];
            && p < |files| && Accepts(files[p], p, listingType, listingId, env, supply)
            && AcceptedRows(caller, files, listingType, listingId, env, supply, key)[j]
               == ItemRow(caller, files[p], p, listingType, listingId, env, supply, key + j)
  {
    var p := Positions(Verdicts(files, listingType, listingId, env, supply), 0, true)[j];
    RowAtAccepted(caller, files, listingType, listingId, env, supply, p, key + j);
  }

  /** `AcceptedRowsAt` for a rank whose accepted position is known. */
  lemma AcceptedRowOf(caller: string, files: seq<FilePayload>, listingType: Option<string>,
                      listingId: Option<string>, env: Env, supply: nat -> Fresh, key: nat,
                      j: nat, p: nat)
    requires j < |Positions(Verdicts(files, listingType, listingId, env, supply), 0, true)|
    requires Positions(Verdicts(files, listingType, listingId, env, supply), 0, true)[j] == p
    ensures p < |files| && Accepts(files[p], p, listingType, listingId, env, supply)
    ensures AcceptedRows(caller, files, listingType, listingId, env, supply, key)[j]
            == ItemRow(caller, files[p], p, listingType, listingId, env, supply, key + j)
  {
    AcceptedRowsAt(caller, files, listingType, listingId, env, supply, key, j);
  }

  /** The `j`-th refused error is the error of the `j`-th refused file. */
  lemma RefusedErrorsAt(files: seq<FilePayload>, listingType: Option<string>,
                        listingId: Option<string>, env: Env, supply: nat -> Fresh, j: nat)
    requires j < |Positions(Verdicts(files, listingType, listingId, env, supply), 0, false)|
    ensures var p := Positions(Verdicts(files, listingType, listingId, env, supply), 0, false)[j];
            && p < |files| && !Accepts(files[p], p, listingType, listingId, env, supply)
            && RefusedErrors(files, listingType, listingId, env, supply)[j]
               == ItemError(files[p], p, listingType, listingId, env, supply)
  {
    var p := Positions(Verdicts(files, listingType, listingId, env, supply), 0, false)[j];
    ErrorAtRefused(files, listingType, listingId, env, supply, p);
  }

  /** At an accepted position the batch-wide lookup is the file's own row. */
  lemma RowAtAccepted(caller: string, files: seq<FilePayload>, listingType: Option<string>,
                      listingId: Option<string>, env: Env, supply: nat -> Fresh, p: nat, id: nat)
    requires p < |files| && Verdicts(files, listingType, listingId, env, supply)[p]
    ensures Accepts(files[p], p, listingType, listingId, env, supply)
    ensures RowAt(caller, files, listingType, listingId, env, supply, p, id)
            == ItemRow(caller, files[p], p, listingType, listingId, env, supply, id)
  {
  }

  /** At a refused position the batch-wide lookup is the file's own error. */
  lemma ErrorAtRefused(files: seq<FilePayload>, listingType: Option<string>,
                       listingId: Option<string>, env: Env, supply: nat -> Fresh, p: nat)
    requires p < |files| && !Verdicts(files, listingType, listingId, env, supply)[p]
    ensures !Accepts(files[p], p, listingType, listingId, env, supply)
    ensures ErrorAt(files, listingType, listingId, env, supply, p)
            == ItemError(files[p], p, listingType, listingId, env, supply)
  {
  }

  /** The rows the batch loop stores over a whole batch: those of the accepted files, in
      submission order, under consecutive keys from the store's next key. */
  lemma BatchLoopRows(s: Store, caller: string, files: seq<FilePayload>,
                      listingType: Option<string>, listingId: Option<string>,
                      meta: RequestMeta, env: Env, supply: nat -> Fresh)
    ensures BatchLoop(s, caller, files, 0, listingType, listingId, meta, env, supply).0
            == AcceptedRows(caller, files, listingType, listingId, env, supply, s.nextFileId)
  {
    BatchLoopGathers(s, caller, files, 0, listingType, listingId, meta, env, supply);
    var vs := Verdicts(files, listingType, listingId, env, supply);
    assert files[0..] == files && vs[0..] == vs;
    GathersKeyedIsKeyed(BatchLoop(s, caller, files, 0, listingType, listingId, meta, env, supply).0,
                        vs, 0, true,
                        (p: nat, id: nat) => RowAt(caller, files, listingType, listingId, env, supply, p, id),
                        s.nextFileId);
  }

  /** The errors the batch loop reports over a whole batch: those of the refused files,
      in submission order. */
  lemma BatchLoopErrors(s: Store, caller: string, files: seq<FilePayload>,
                        listingType: Option<string>, listingId: Option<string>,
                        meta: RequestMeta, env: Env, supply: nat -> Fresh)
    ensures BatchLoop(s, caller, files, 0, listingType, listingId, meta, env, supply).1
            == RefusedErrors(files, listingType, listingId, env, supply)
  {
    BatchLoopGathers(s, caller, files, 0, listingType, listingId, meta, env, supply);
    var vs := Verdicts(files, listingType, listingId, env, supply);
    assert files[0..] == files && vs[0..] == vs;
    GathersIsPicked(BatchLoop(s, caller, files, 0, listingType, listingId, meta, env, supply).1,
                    vs, 0, false, (p: nat) => ErrorAt(files, listingType, listingId, env, supply, p));
  }


  /** `batch_upload`. */
  function BatchUpload(s: Store, caller: string, files: seq<FilePayload>,
                       listingType: Option<string>, listingId: Option<string>,
                       meta: RequestMeta, env: Env, supply: nat -> Fresh)
    : (r: Result<(BatchReport, Store), BatchRejection>)
    ensures r.Failure? <==> |files| == 0
    ensures r.Failure? ==> r.error == NoFilesProvided
    ensures r.Success? ==>
              var (report, t) := r.value;
              && report.success + report.failed == |files|
              && report.success == |report.results| && report.failed == |report.errors|
              && t.files == s.files + report.results
              && |t.logs| == |s.logs| + report.success && t.logs[..|s.logs|] == s.logs
    ensures r.Success? ==>
              var report := r.value.0;
              forall j :: 0 < j < |report.results| ==> !report.results[j].isPrimary
    ensures r.Success? && Valid(s) ==> Valid(r.value.1)
    // each file's outcome is that of `create` on it alone: the accepted files' rows, in
    // submission order under consecutive keys, and the refused files' errors, in order
    ensures r.Success? ==>
              && r.value.0.results
                 == AcceptedRows(caller, files, listingType, listingId, env, supply, s.nextFileId)
              && r.value.0.errors == RefusedErrors(files, listingType, listingId, env, supply)
  {
    if |files| == 0 then Failure(NoFilesProvided)
    else
      BatchLoopRows(s, caller, files, listingType, listingId, meta, env, supply);
      BatchLoopErrors(s, caller, files, listingType, listingId, meta, env, supply);
      var (results, errors, t) := BatchLoop(s, caller, files, 0, listingType, listingId, meta,
                                            env, supply);
      Success((BatchReport(|results|, |errors|, results, errors), t))
  }

  /** After a batch the blob store holds the earlier blobs and those of the results, and
      each result has its own `upload` log row, in the order of the results. */
  lemma BatchUploadLogsUploads(s: Store, caller: string, files: seq<FilePayload>,
                               listingType: Option<string>, listingId: Option<string>,
                               meta: RequestMeta, env: Env, supply: nat -> Fresh)
    requires |files| > 0
    ensures var (report, t) := BatchUpload(s, caller, files, listingType, listingId, meta, env, supply).value;
            && t.blobs == s.blobs + OwnedAll(report.results)
            && LogsUploads(t.logs, |s.logs|, report.results, caller)
  {
    BatchLoopLogsUploads(s, caller, files, 0, listingType, listingId, meta, env, supply);
  }

  /** The first file is created as primary exactly when it is accepted: if it fails,
      no file of the batch is flagged. */
  lemma BatchPrimaryIsFirstFile(s: Store, caller: string, files: seq<FilePayload>,
                                listingType: Option<string>, listingId: Option<string>,
                                meta: RequestMeta, env: Env, supply: nat -> Fresh)
    requires |files| > 0
    ensures var report := BatchUpload(s, caller, files, listingType, listingId, meta, env, supply).value.0;
            (|report.results| > 0 && report.results[0].isPrimary)
            <==> CreateItem(s, caller, files[0], 0, listingType, listingId, meta, env, supply(0)).result.Success?
  {
    var out := CreateItem(s, caller, files[0], 0, listingType, listingId, meta, env, supply(0));
    var rest := BatchLoop(out.store, caller, files[1..], 1, listingType, listingId, meta, env, supply);
    var loop := BatchLoop(s, caller, files, 0, listingType, listingId, meta, env, supply);
    if out.result.Success? {
      assert loop.0 == [out.result.value] + rest.0;
    } else {
      assert loop.0 == rest.0;
    }
  }

  /** A refused file does not disturb the others: when only the file at position `q`
      is refused, the batch reports one error, that file's, and the rows of all other
      files, in order (`IsolatedPrefix` and `IsolatedSuffix` read them back by file). */
  lemma BatchIsolatesRefusal(s: Store, caller: string, files: seq<FilePayload>,
                             listingType: Option<string>, listingId: Option<string>,
                             meta: RequestMeta, env: Env, supply: nat -> Fresh, q: nat)
    requires q < |files|
    requires forall k :: 0 <= k < |files| ==>
               (Accepts(files[k], k, listingType, listingId, env, supply) <==> k != q)
    ensures var report := BatchUpload(s, caller, files, listingType, listingId, meta, env, supply).value.0;
            && report.success == |files| - 1 && report.failed == 1
            && report.errors == [ItemError(files[q], q, listingType, listingId, env, supply)]
            && report.results
               == AcceptedRows(caller, files, listingType, listingId, env, supply, s.nextFileId)
    ensures var accepted := Positions(Verdicts(files, listingType, listingId, env, supply), 0, true);
            && |accepted| == |files| - 1
            && forall j :: 0 <= j < |accepted| ==> accepted[j] == if j < q then j else j + 1
  {
    OnlyRefusedPositions(files, listingType, listingId, env, supply, q);
    var report := BatchUpload(s, caller, files, listingType, listingId, meta, env, supply).value.0;
    IsolatedErrors(report.errors, files, listingType, listingId, env, supply, q);
  }

  /** When only position `q` is refused, it is the one refused position and the
      accepted ones are all the others, in order. */
  lemma OnlyRefusedPositions(files: seq<FilePayload>, listingType: Option<string>,
                             listingId: Option<string>, env: Env, supply: nat -> Fresh, q: nat)
    requires q < |files|
    requires forall k :: 0 <= k < |files| ==>
               (Accepts(files[k], k, listingType, listingId, env, supply) <==> k != q)
    ensures var vs := Verdicts(files, listingType, listingId, env, supply);
            && Positions(vs, 0, false) == [q]
            && var accepted := Positions(vs, 0, true);
               && |accepted| == |files| - 1
               && forall j :: 0 <= j < |accepted| ==> accepted[j] == if j < q then j else j + 1
  {
    PositionsAllBut(Verdicts(files, listingType, listingId, env, supply), 0, q);
  }

  /** Errors gathered at the refused positions of a batch whose only refused position
      is `q`: that file's error alone. */
  lemma IsolatedErrors(errors: seq<BatchError>, files: seq<FilePayload>,
                       listingType: Option<string>, listingId: Option<string>, env: Env,
                       supply: nat -> Fresh, q: nat)
    requires q < |files|
    requires !Accepts(files[q], q, listingType, listingId, env, supply)
    requires Positions(Verdicts(files, listingType, listingId, env, supply), 0, false) == [q]
    requires errors == RefusedErrors(files, listingType, listingId, env, supply)
    ensures errors == [ItemError(files[q], q, listingType, listingId, env, supply)]
  {
    RefusedErrorsAt(files, listingType, listingId, env, supply, 0);
  }

  /** When every position but `q` is accepted, the accepted rows before rank `q` are
      those of the files at the same positions, under consecutive keys. */
  lemma IsolatedPrefix(caller: string, files: seq<FilePayload>, listingType: Option<string>,
                       listingId: Option<string>, env: Env, supply: nat -> Fresh, key: nat, q: nat)
    requires q < |files|
    requires forall k :: 0 <= k < |files| && k != q ==>
               Accepts(files[k], k, listingType, listingId, env, supply)
    requires var accepted := Positions(Verdicts(files, listingType, listingId, env, supply), 0, true);
             && |accepted| == |files| - 1
             && forall j :: 0 <= j < |accepted| ==> accepted[j] == if j < q then j else j + 1
    ensures forall j :: 0 <= j < q ==>
              AcceptedRows(caller, files, listingType, listingId, env, supply, key)[j]
              == ItemRow(caller, files[j], j, listingType, listingId, env, supply, key + j)
  {
    var accepted := Positions(Verdicts(files, listingType, listingId, env, supply), 0, true);
    forall j | 0 <= j < q
      ensures AcceptedRows(caller, files, listingType, listingId, env, supply, key)[j]
              == ItemRow(caller, files[j], j, listingType, listingId, env, supply, key + j)
    {
      AcceptedRowOf(caller, files, listingType, listingId, env, supply, key, j, j);
    }
  }

  /** When every position but `q` is accepted, each file after `q` has its row one rank
      before its own position, under the key of that rank. */
  lemma IsolatedSuffix(caller: string, files: seq<FilePayload>, listingType: Option<string>,
                       listingId: Option<string>, env: Env, supply: nat -> Fresh, key: nat, q: nat)
    requires q < |files|
    requires forall k :: 0 <= k < |files| && k != q ==>
               Accepts(files[k], k, listingType, listingId, env, supply)
    requires var accepted := Positions(Verdicts(files, listingType, listingId, env, supply), 0, true);
             && |accepted| == |files| - 1
             && forall j :: 0 <= j < |accepted| ==> accepted[j] == if j < q then j else j + 1
    ensures forall p :: q < p < |files| ==>
              AcceptedRows(caller, files, listingType, listingId, env, supply, key)[p - 1]
              == ItemRow(caller, files[p], p, listingType, listingId, env, supply, key + (p - 1))
  {
    var accepted := Positions(Verdicts(files, listingType, listingId, env, supply), 0, true);
    forall p | q < p < |files|
      ensures AcceptedRows(caller, files, listingType, listingId, env, supply, key)[p - 1]
              == ItemRow(caller, files[p], p, listingType, listingId, env, supply, key + (p - 1))
    {
      AcceptedRowOf(caller, files, listingType, listingId, env, supply, key, p - 1, p);
    }
  }

  /** Without a listing type every file is refused as incomplete: the errors name the
      files in submission order and nothing is stored. */
  lemma BatchWithoutListingType(s: Store, caller: string, files: seq<FilePayload>,
                                listingId: Option<string>, meta: RequestMeta, env: Env,
                                supply: nat -> Fresh)
    requires |files| > 0
    ensures var (report, t) := BatchUpload(s, caller, files, None, listingId, meta, env, supply).value;
            && report.success == 0 && report.failed == |files| && t == s
            && |report.errors| == |files|
            && forall j :: 0 <= j < |files| ==>
                 report.errors[j] == BatchError(files[j].name, MissingFields)
  {
    BatchLoopWithoutListingType(s, caller, files, 0, listingId, meta, env, supply);
  }

  lemma {:induction false} BatchLoopWithoutListingType(s: Store, caller: string,
                                                      files: seq<FilePayload>, index: nat,
                                                      listingId: Option<string>,
                                                      meta: RequestMeta, env: Env,
                                                      supply: nat -> Fresh)
    ensures var r := BatchLoop(s, caller, files, index, None, listingId, meta, env, supply);
            && r.0 == [] && r.2 == s && |r.1| == |files|
            && forall j :: 0 <= j < |files| ==> r.1[j] == BatchError(files[j].name, MissingFields)
    decreases |files|
  {
    if |files| > 0 {
      BatchLoopWithoutListingType(s, caller, files[1..], index + 1, listingId, meta, env, supply);
      var r := BatchLoop(s, caller, files, index, None, listingId, meta, env, supply);
      var rest := BatchLoop(s, caller, files[1..], index + 1, None, listingId, meta, env, supply);
      assert r.1 == [BatchError(files[0].name, MissingFields)] + rest.1;
      forall j | 0 <= j < |files|
        ensures r.1[j] == BatchError(files[j].name, MissingFields)
      {
        if j > 0 {
          assert r.1[j] == rest.1[j - 1];
          assert files[1..][j - 1] == files[j];
        }
      }
    }
  }
}
